=== FILE: README.md ===
# Tech & AI Daily: a Dafny model of the site's core

This project models the logic of a small news site. The site has a PHP
JSON API over a MySQL database and a React single-page front end.

The server side has three endpoints:

- `api/articles.php` lists, reads, creates, updates and deletes articles.
  It also upserts their tags and formats an article row as JSON.
- `api/auth.php` logs an admin in and out, and reports the session.
- `api/upload.php` accepts an image for the editor.

The client side has three parts:

- The hash router and home page of `App.tsx`.
- The pure helpers of the article editor in
  `components/EnhancedAdminPage.tsx`: the slug, the SEO caps, tag parsing,
  read time and image fallbacks.
- The request building and reply handling of `services/apiService.ts`.

Every endpoint is a pure transition from a request and a state to a
response and a state. The database is a value `Db`:

- `articles` maps an id to a row.
- `authors` maps an id to an author row.
- `tags` maps a folded tag name to the tag row. This is the unique index on
  `tags.name`.
- `links` is the set of article–tag pairs (`article_tags`).
- `nextTagId` is the auto-increment counter.

The column collation is a parameter `fold`: two tag names are the same tag
exactly when they fold to the same key.

Create and update are `Tx` values. A `Tx` either commits a new database or
is rejected with the database untouched, which is what the surrounding
transaction guarantees. The PHP session is an `Option` of the logged-in
admin.

A JSON body key is one of three `Field` states: absent, `null`, or a given
value. PHP's `??` treats `null` like a missing key, while `array_key_exists`
does not, and the model needs both. PHP `empty()` on a string means `""` or
`"0"`.

Where MySQL may return rows in any order, a method picks an order with
`:|`, and the contract holds for every choice. Ties under
`ORDER BY published_at DESC` and the order of names in `GROUP_CONCAT` are
handled this way.

Modules, one per file:

| module | models |
|---|---|
| `Wrappers` | `Option` and `Result` |
| `Text` | PHP/JavaScript string helpers: `trim`, `explode`/`split` with `implode`/`join`, `empty`, substring search, decimal printing |
| `Utf8` | UTF-8 bytes (RFC 3629), for PHP `strlen` and for percent-encoding |
| `Types` | `types.ts` |
| `ArticleStore` | the tables, `insertTags`, the article SELECT and `formatArticle` |
| `ArticlesApi` | `handleGet`, `handlePost`, `handlePut`, `handleDelete` and the method switch |
| `Auth` | `handleLogin`, `handleLogout`, `handleVerify`, `requireAuth` and the action switch |
| `Upload` | the upload script's guards, stored file name and URL |
| `AdminForm` | the editor's slug, SEO caps, tag parsing and submit payload |
| `AppShell` | hash routing, view choice, top story and feed, state events |
| `ApiClient` | the client's URLs and query strings, their percent-encoding, and reply handling |

Two behaviours of the code, as written, are stated as lemmas rather than
corrected:

- A home-page search for `"0"` is sent to the server but ignored there,
  because PHP's `empty("0")` is true (`ApiClient.FiltersAgree`).
- A tag name containing a comma comes back as two tags, because the names
  travel through `GROUP_CONCAT` and `explode(',')`
  (`ArticleStore.CommaInTagNameSplits`).

## Model

| member | source | states |
|---|---|---|
| Text.Trim | api/articles.php:284 | The result is the input with its leading and trailing spaces cut off. It starts right after the leading spaces, only spaces follow it, and it has no space at either end. It is empty exactly when the input is all space. |
| Text.TrimIdempotent | components/EnhancedAdminPage.tsx:93 | Trimming twice gives the same result as trimming once. |
| Text.TrimFixedPoint | api/articles.php:284 | Trimming leaves a string unchanged exactly when it already has no space at either end. |
| Text.Split | api/articles.php:320 | `explode` always yields at least one piece. No piece holds the separator, and joining the pieces with it gives back the input. |
| Text.SplitJoin | api/articles.php:320 | Joining pieces that hold no separator and splitting again gives the same pieces. |
| Text.IndexOf | App.tsx:70 | The index is the first position where the separator occurs, and there is none exactly when the string does not contain it. |
| Text.Decimal | services/apiService.ts:25 | A number prints as a non-empty string of digits with no leading zero, and those digits denote the number. |
| Text.LowerAsciiString | components/EnhancedAdminPage.tsx:42 | Lower-casing keeps the length and maps each ASCII capital to its small letter; every other character is unchanged. |
| Utf8.EncodeChar | services/apiService.ts:40 | A character encodes to 1 to 4 bytes. The first byte announces the length; the rest are continuation bytes. |
| Utf8.EncodeCharInjective | services/apiService.ts:40 | Decoding a character's bytes gives back its scalar value. |
| Utf8.EncodeInjective | services/apiService.ts:13-21 | Two strings with the same UTF-8 bytes are equal. |
| Utf8.ByteLength | api/articles.php:164 | `strlen` is at least the number of characters, and equals it exactly when the text is ASCII. |
| Types.ParseCategory | types.ts:1 | A name parses to a category with that name, and to nothing exactly when it is not one of the five names. |
| Types.CategoryNameRoundTrip | types.ts:1 | Each of the five categories reads back from its name, and none is called "All". |
| ArticleStore.KeptName | api/articles.php:283-285 | A raw tag is skipped exactly when trimming leaves it empty in PHP's sense; a kept name is trimmed and non-empty. |
| ArticleStore.InsertTags | api/articles.php:282-300 | Articles and authors are untouched and existing tags keep their rows. The tag keys grow by exactly the kept names' keys, and the links grow by exactly this article's links to them. The store invariant is preserved. |
| ArticleStore.UpsertTagValid | api/articles.php:288-298 | One loop turn keeps tag rows under their folded names, with distinct ids below the counter. |
| ArticleStore.InsertTagsIdempotent | api/articles.php:282-300 | Running the tag upsert twice with the same list is the same as running it once. |
| ArticleStore.InsertTagsNoOp | api/articles.php:288-298 | When every kept name already has its tag and link, the upsert changes nothing. This is what `INSERT IGNORE` guarantees. |
| ArticleStore.InsertTagsLinksKeptNames | api/articles.php:283-299 | Afterwards every kept name is a tag, and the article is linked to that tag's id. |
| ArticleStore.InsertTagsOnlyOwnLinks | api/articles.php:297-298 | The upsert adds links of this article only; other articles' links are untouched. |
| ArticleStore.UpsertTag | api/articles.php:286-299 | One loop turn skips a name that trims to empty. Otherwise it makes sure a tag exists under the name's folded key: an existing tag keeps its row, and a new one gets the name and the next id. It then adds exactly the link from the article to that tag. Articles and authors are untouched. |
| ArticleStore.GroupConcat | api/articles.php:53 | The concatenation is NULL exactly when the article has no tag rows. |
| ArticleStore.FormatArticle | api/articles.php:305-325 | Tags are `[]` when the concatenation is NULL or empty, and otherwise comma-free pieces that join back to it. The read time is the stored value, and 0 for NULL. `isTopStory` is true exactly when the column is true. Id, title, summary, content, category, date, image and AI summary pass through unchanged. The author object carries the article's author id, and the joined author's name, avatar and role, or NULL for each when no author row joined. |
| ArticleStore.FormatTagsRoundTrip | api/articles.php:320 | Splitting the comma-joined tag names gives back the stored list whenever no name holds a comma; an untagged article gets `[]`. |
| ArticleStore.CommaInTagNameSplits | api/articles.php:320 | The one tag "a,b" comes back as the two tags "a" and "b". |
| ArticleStore.Enumerate | api/articles.php:56-59 | The grouped tag rows list every linked tag exactly once, in some order. |
| ArticleStore.Render | api/articles.php:47-70 | The article is `formatArticle` of its selected row, for some order of its tag rows. Id, category, title, summary and date are the stored ones. |
| ArticleStore.RenderingTags | api/articles.php:53-57 | Under the store invariant, and with comma-free names, the rendered tags are exactly the linked tag names, each once. |
| ArticlesApi.FirstEmpty | api/articles.php:132-139 | The validation loop stops at the first empty required key, or finds none exactly when every key is non-empty. |
| ArticlesApi.RequiredPresent | api/articles.php:132-139 | Finding no empty key is the same as all five required keys holding non-empty strings. |
| ArticlesApi.DefaultReadTime | api/articles.php:164 | The default read time is the ceiling of the byte length over 1000. It is at least 1 for non-empty content. |
| ArticlesApi.CreateTx | api/articles.php:122-184 | A body that is not JSON, or is an empty object, is answered 400 "Invalid JSON". A create commits only for a non-empty body whose five required keys are all non-empty. For such a body, with the given id or else the generated one, the create commits exactly when that id is new, storing the new row under it; an id that already exists answers 500. |
| ArticlesApi.CreateValidation | api/articles.php:125-139 | Validation rejects with 400 "Missing required field: X", naming the first empty key in the order title, summary, content, category, author_id. A commit implies all five are present. |
| ArticlesApi.CreateStoresArticle | api/articles.php:141-172 | A committed create adds one new row under the given id or `article_` plus the unique part. The row holds the given title, summary, content, category and author id. Its date is the one given or the current time. Its image and AI summary are the ones given, or NULL. Its read time is the one given or the byte-based default, and its top-story flag is the one given or false. The only other change is the tag upsert for that article, which runs only for a non-empty tag array. |
| ArticlesApi.CreateValid | api/articles.php:141-174 | A committed create keeps the store invariant. |
| ArticlesApi.Unlink | api/articles.php:240 | Unlinking removes exactly the links of the one article and keeps every other link. |
| ArticlesApi.Patch | api/articles.php:205-235 | Each column is kept when its key is absent, becomes NULL for a `null` key, and takes the given value otherwise. With no updatable key the row is unchanged. |
| ArticlesApi.UpdateTx | api/articles.php:189-245 | An update commits exactly when the body has a non-empty id and an updatable key; otherwise it answers 400. A commit keeps the set of article ids and the authors. It patches the article with that id when it exists. |
| ArticlesApi.UpdateValidation | api/articles.php:192-229 | An empty or missing id gives 400 "Missing article ID". A body with no updatable key gives 400 "No fields to update", including a body with only tags. An update commits exactly when neither applies. |
| ArticlesApi.UpdateWritesPresentKeys | api/articles.php:205-235 | A committed update writes exactly the columns whose keys are present (`null` writes NULL) on that one article. Every other column and article is unchanged, and the set of ids stays the same. |
| ArticlesApi.UpdateReplacesTags | api/articles.php:237-243 | A present tag array replaces the article's whole link set with the links of the listed names, and other articles' links stay. Without one, tags and links are untouched. |
| ArticlesApi.UpdateValid | api/articles.php:200-245 | A committed update keeps the store invariant. |
| ArticlesApi.DeleteOutcome | api/articles.php:260-277 | No id gives 400 and a missing article gives 404, both with no change. Otherwise the one row goes and success is returned. Tags and links are never touched. |
| ArticlesApi.Delete | api/articles.php:260-277 | A delete succeeds exactly for an id of an existing article, and then removes only that row. Every other answer leaves the database as it was. |
| ArticlesApi.DeleteThenGet | api/articles.php:260-277 | Reading an article back after deleting it answers 404 "Article not found". |
| ArticlesApi.GetById | api/articles.php:46-71 | An unknown id answers 404 "Article not found". A known id answers 200 with a rendering of that article. |
| ArticlesApi.NewestExists | api/articles.php:109 | Every non-empty set of articles has one at least as new as all the others, with NULL dates counting as oldest. |
| ArticlesApi.ListIds | api/articles.php:88-113 | The query returns exactly the matching articles, each once. Each date is not older than the next. |
| ArticlesApi.List | api/articles.php:74-117 | Every listed article has the requested category when the filter is set and not "All". Each has the search text in its title or summary when the search is set and non-empty. Every article that matches both is listed, each once, newest first. |
| ArticlesApi.RenderAll | api/articles.php:115 | Every listed id is formatted in order, keeping its id, category, title, summary and date. |
| ArticlesApi.Get | api/articles.php:44-117 | With an `id` parameter the answer is 404 "Article not found" for an unknown id and the rendered article otherwise. Without one it is 200 with the listing: exactly the articles passing both filters, each once, newest first. |
| ArticlesApi.CreateThenGet | api/articles.php:174-178 | Reading back a freshly created article answers 200 with its id, title, summary, content, category and top-story flag. |
| ArticlesApi.Handle | api/articles.php:18-39 | GET never changes the store and gives the read handler's answer, and an unknown method answers 405. A rejected write leaves the store as it was, and a committed create answers with the stored article. DELETE answers and changes the store as the delete handler does. The store invariant is preserved. |
| Auth.FindActive | api/auth.php:60-62 | The login lookup returns the first active row whose name matches under the collation, or none exactly when no active row matches. |
| Auth.Touch | api/auth.php:71-72 | The last-login update changes exactly the rows with that id, and only their last-login time. |
| Auth.Login | api/auth.php:50-87 | Login answers 200, 400 or 401. A failure leaves the state unchanged. A success reports the user it puts in the session. |
| Auth.Logout | api/auth.php:92-95 | Logout always answers success, clears the session and leaves the table alone. |
| Auth.Verify | api/auth.php:100-113 | `verify` always answers 200. It reports authenticated exactly when there is a session, and then reports that session's user. |
| Auth.RequireAuth | api/auth.php:118-124 | The guard lets the caller through exactly when there is a session. Otherwise it answers 401 "Unauthorized". |
| Auth.LoginSucceedsIff | api/auth.php:50-87 | Login answers 200 exactly when both credentials are non-empty, an active matching user exists, and the password verifies against that row's hash. A blank username or password answers 400 "Username and password required". Every other failure answers 401 "Invalid credentials". Every failure leaves session and table unchanged. |
| Auth.LoginThenVerify | api/auth.php:71-86 | After a successful login, the session holds exactly that user's id, username and email. `verify` reports that user and `requireAuth` passes. Only that id's last-login time changes. |
| Auth.LogoutThenVerify | api/auth.php:92-95 | Logout answers success and leaves no session, whatever came before. Repeating it changes nothing, and afterwards `verify` reports no session and `requireAuth` answers 401. |
| Auth.RequireAuthAgreesWithVerify | api/auth.php:100-124 | `requireAuth` passes exactly when `verify` would report the caller authenticated; otherwise it answers 401. |
| Auth.Handle | api/auth.php:13-45 | Login by a non-POST method answers 405 with nothing changed. Any action other than login, logout and verify, including a missing one, answers 400 "Invalid action" with nothing changed. The three actions dispatch to their handlers. Only login and logout can change the session, and the table changes only in last-login times. |
| Upload.AfterLast | api/upload.php:61 | The part after the last separator holds none and is a suffix of the text. It is shorter than the text exactly when the separator occurs, and then the separator precedes it. |
| Upload.Extension | api/upload.php:61 | `pathinfo`'s extension holds no '.' or '/' and ends the name. When non-empty, a '.' precedes it. |
| Upload.HandleUpload | api/upload.php:11-79 | An unauthenticated caller gets 401 before anything else. Success needs POST, a file, an allowed type, a size of at most 5 MiB and a completed move. It answers with the stored name and `/uploads/` plus that name. |
| Upload.GuardOrder | api/upload.php:16-52 | The method is checked before the file and the type before the size. A file of exactly 5 MiB is accepted, and one byte more is "File too large". |
| Upload.StoredNameKeepsExtension | api/upload.php:61-62 | The stored name has the same extension as the client's file name. |
| Upload.UploadedNameShape | api/upload.php:61-78 | On success the file name starts with `img_` and ends with '.' and the original extension, and the URL is `/uploads/` plus the file name. |
| AdminForm.CollapseWords | components/EnhancedAdminPage.tsx:43 | Replacing every maximal run of non-`[a-z0-9]` characters by one '-' yields the maximal `[a-z0-9]` runs (`Words`) joined by single dashes, with a dash at the front for a leading run and one at the back for a trailing run. |
| AdminForm.StripWords | components/EnhancedAdminPage.tsx:43-44 | Dropping the one leading and one trailing dash of the collapsed text leaves exactly the words joined by single dashes. |
| AdminForm.AutoSlug | components/EnhancedAdminPage.tsx:41-44 | The auto slug is the lower-cased title's maximal `[a-z0-9]` runs joined by single dashes ("Hello World" gives "hello-world"). So it is `[a-z0-9-]` only, with no leading, trailing or doubled dash, and keeps every lower-cased letter and digit of the title in order. |
| AdminForm.StripCollapsed | components/EnhancedAdminPage.tsx:44 | Dropping the edge dashes of a collapsed string leaves a clean slug with the same letters and digits. |
| AdminForm.AutoSlugIdempotent | components/EnhancedAdminPage.tsx:41-44 | The auto-slug transform applied to its own output returns it unchanged. |
| AdminForm.CleanSlugFixed | components/EnhancedAdminPage.tsx:41-44 | A clean slug is its own auto slug. |
| AdminForm.SanitizeSlug | components/EnhancedAdminPage.tsx:362 | The manual sanitiser works character for character: a character whose lower case is in `[a-z0-9-]` becomes that lower case, and every other character becomes '-'. |
| AdminForm.SanitizeFixed | components/EnhancedAdminPage.tsx:362 | The sanitiser is idempotent, leaves slug characters alone, and passes an auto slug through unchanged. |
| AdminForm.Prefix | components/EnhancedAdminPage.tsx:52 | `slice(0, n)` is a prefix of at most n characters, and the whole string when it is no longer. |
| AdminForm.TitleEditSlug | components/EnhancedAdminPage.tsx:39-54 | A title edit fills the slug only from a non-empty, changed title into an empty slug. An existing slug or meta title is never overwritten. |
| AdminForm.RunKeepsInvariant | components/EnhancedAdminPage.tsx:52 | After any sequence of edits, the meta title is at most 70 characters, the meta description at most 160, and the slug within `[a-z0-9-]`. |
| AdminForm.ApplyKeepsInvariant | components/EnhancedAdminPage.tsx:377-390 | Each edit, effect and reset keeps the caps and the slug's character class. |
| AdminForm.TitleEffects | components/EnhancedAdminPage.tsx:39-54 | The title effects change only the slug and the meta title. Each is filled only when it is empty and the title is non-empty and changed. The slug is filled with the auto slug, and the meta title with the title's first 70 characters (`slice(0, 70)`). |
| AdminForm.Apply | components/EnhancedAdminPage.tsx:39-403 | Each input writes its own field and keeps the others. A title edit then runs the title effects. A typed slug goes through the sanitiser, the meta title is cut to 70 characters and the meta description to 160. The reset after publishing restores the blank form. Every event keeps the SEO caps and the slug's character class. |
| AdminForm.ParseTags | components/EnhancedAdminPage.tsx:93 | Parsed tags are non-empty, trimmed and comma-free. Text without a comma gives its trimmed self, or nothing when that is empty. |
| AdminForm.ParseTagsAppend | components/EnhancedAdminPage.tsx:93 | The tags of `a,b` are the tags of `a` followed by those of `b`. With the comma-free case this fixes the parse of every text. |
| AdminForm.CleanTags | components/EnhancedAdminPage.tsx:93 | A single piece becomes its trimmed text, or nothing when that is empty. Every kept tag is non-empty and trimmed. |
| AdminForm.CleanTagsAppend | components/EnhancedAdminPage.tsx:93 | Cleaning works piece by piece, so the kept tags stay in the order of the pieces. With the single-piece case this fixes the result for every input. |
| AdminForm.ParseTagsRoundTrip | components/EnhancedAdminPage.tsx:93 | A parsed tag list written back as comma-separated text parses to the same list. |
| AdminForm.ClientReadTime | components/EnhancedAdminPage.tsx:104 | The read time is 5 for empty content, otherwise the ceiling of the length over 1000, and always at least 1. |
| AdminForm.ArticleImage | components/EnhancedAdminPage.tsx:102 | The image is the featured image, else the thumbnail, else the placeholder; never empty. |
| AdminForm.Submit | components/EnhancedAdminPage.tsx:93-113 | The payload's image is the image fallback, its read time the client read time, and its tags the parsed tag field. The OG image is the one given, else the thumbnail. The author is the fixed editor and the date is the current time. Title, summary, content, category, top-story flag, slug, SEO fields and thumbnail are the form's. |
| AppShell.EffectiveHash | App.tsx:17 | A missing hash is `#/`; a present one is kept. |
| AppShell.ArticleId | App.tsx:69-70 | An id is extracted exactly on an article route, and it is a prefix of what follows `#/article/`. |
| AppShell.ArticleIdRoundTrip | App.tsx:69-70 | For `#/article/X` with no `/article/` in X, the route is an article route and its id is X. |
| AppShell.FindById | App.tsx:128 | `find` returns the first article with that id, or none exactly when no article has it. |
| AppShell.FirstTopStory | App.tsx:136 | `find` returns the first top story, or none exactly when there is none. |
| AppShell.TopStory | App.tsx:136 | The top story is the first article marked as one: no article before it is marked. With none marked it is the first article, and there is none only for an empty list. |
| AppShell.WithoutId | App.tsx:137 | The filter keeps exactly the articles with a different id. On a single article it keeps it or drops it by its id. |
| AppShell.WithoutIdAppend | App.tsx:137 | The filter distributes over concatenation, so it preserves order. |
| AppShell.Feed | App.tsx:137 | The feed holds exactly the articles whose id differs from the top story's. With no top story it is the whole list. |
| AppShell.ViewPrecedence | App.tsx:94-117 | Loading with no articles shows first, then a load error. The loading screen appears only while loading with no articles, and the error screen only when an error is set. |
| AppShell.ViewOf | App.tsx:94-133 | The loading screen shows exactly while loading with no articles. The error screen shows exactly when an error is set and the loading screen does not show. `#/admin` shows the login page or the editor, the editor only to an admin. An article page shows a loaded article whose id is the route's. The empty page means no articles, and the home grid holds only loaded articles. |
| AppShell.Step | App.tsx:41-91 | Only loading and publishing change the article list; a load replaces it and ends loading. Only a hash change, a publish and a logout move the route, and a non-empty route never becomes empty. Only the session check, login and logout change the admin flag. Search and category change only on their own events. |
| AppShell.AdminGate | App.tsx:120-126 | `#/admin` shows the login page to a guest and the editor to an admin. |
| AppShell.ArticleRoute | App.tsx:127-133 | An article route shows the loaded article with that id, and not-found when none has it. |
| AppShell.HomeLayout | App.tsx:135-191 | The hero appears exactly without a search and with every category, and is the top story. The grid is then the feed, and otherwise the whole list. |
| AppShell.ArticleAddedFirst | App.tsx:72-75 | A published article is prepended and the route goes home. A new top story becomes the home page's top story. |
| AppShell.LoadFailedShowsError | App.tsx:58-59 | A failed load shows the fixed error message whatever the route, and keeps the list. |
| ApiClient.FormEncode | services/apiService.ts:13-21 | Form-encoding decodes back to the UTF-8 bytes of the text, and the result holds no `&`, `=`, `#` or `?`. |
| ApiClient.UriEncode | services/apiService.ts:40 | `encodeURIComponent` decodes back to the UTF-8 bytes of the text, and the result holds no `&`, `=`, `#` or `?`. |
| ApiClient.PairText | services/apiService.ts:15-18 | An encoded `name=value` piece holds an `=` and no `&`, so the server can split it off the query string. |
| ApiClient.ArticleParams | services/apiService.ts:13-19 | At most the two parameters `category` and `search` are added, in that order. None is added exactly when the category is missing, empty or "All" and the search is missing or empty. |
| ApiClient.QueryString | services/apiService.ts:13-21 | The server decodes the query string to the bytes of exactly the parameters sent, in order. The string is empty exactly when no parameter was added. |
| ApiClient.ServerReadsSentStrings | services/apiService.ts:13-21 | Decoding a parameter's bytes as UTF-8 gives back the very strings the client put in. |
| ApiClient.ParamPresence | services/apiService.ts:14-19 | `category` is sent exactly when given, non-empty and not "All", and `search` exactly when non-empty. Each carries the given value. |
| ApiClient.QuestionMarkIffParams | services/apiService.ts:21 | With a base URL free of `?`, the URL contains `?` exactly when a parameter was added. |
| ApiClient.IdEncodingRoundTrip | services/apiService.ts:40 | The get-by-id and delete query is the single parameter `id`, decoding to the id's bytes. |
| ApiClient.ReadValue | services/apiService.ts:24-28 | A non-2xx status throws "HTTP error! status" with that status. Success needs a 2xx status and a JSON body, and returns that body. |
| ApiClient.ReadValueOrError | services/apiService.ts:66-71 | A non-2xx status throws the server's error text, or the status when there is none. Success needs a 2xx status and a JSON body, and returns that body. |
| ApiClient.ReadDeleted | services/apiService.ts:112-115 | The delete succeeds exactly on a 2xx status. Otherwise it fails with the server's non-empty `error` text, or with "HTTP error! status: N" when there is none. |
| ApiClient.NonOkThrows | services/apiService.ts:24-26 | Any non-2xx reply makes every call throw. |
| ApiClient.FiltersAgree | services/apiService.ts:14-19 | The server's filters are on exactly as the home page asks, except that a search for "0" is sent but ignored. |

## Left out

- SQL text, PDO, JSON encoding, headers, `http_response_code` and `echo`.
  Responses are a status and a payload value, and the database is an
  abstract value.
- MySQL `LIKE` wildcards (`%`, `_` in the search text), and the
  collation's case-folding in every string comparison except tag names:
  the search, `a.category = ?` (`api/articles.php:93`) and `id = ?`
  (`api/articles.php:58`, `api/articles.php:267`). The search is a plain
  substring test, and the category and id are compared exactly. Tag-name
  equality under the collation is the parameter `fold`.
- `uniqid`, `date`/`NOW()`, `Date.now()` and `new Date()`. Their values are
  parameters (`unique`, `now`, `nowIso`, `nowMillis`). Any id that already
  exists, given or generated, makes the create fail with 500, as the
  primary key would.
- `password_verify` and bcrypt: an uninterpreted parameter
  `passwordVerify`.
- Filesystem work in the upload script: `mkdir` and `move_uploaded_file`.
  The move's outcome is the parameter `moved`.
- The include side effect of `api/upload.php:9`. Including `api/auth.php`
  also runs its action switch; only `requireAuth` is modelled, as a pure
  guard.
- Publishing from the editor end to end. The editor sends an `author`
  object (`components/EnhancedAdminPage.tsx:100`), while the server
  requires `author_id`. Each side is modelled against its own contract.
- "No fields to update" returns inside an open transaction
  (`api/articles.php:225-229`). It is modelled as a rejection with no
  change.
- No cascade on delete. Deleting an article leaves its `article_tags` rows,
  because no foreign key is visible; `ArticlesApi.DeleteOutcome` states
  that links are untouched.
- Database constraints beyond the primary keys and the unique tag name:
  NOT NULL columns, foreign keys, and auto-increment gaps after an ignored
  insert. A failed insert other than a duplicate id is not modelled.
- `GROUP_CONCAT`'s 1024-byte truncation of the tag list.
- ArticlesApi.Handle: a committed update answers 200 exactly when the
  article exists; the body of that answer is stated only through
  `ArticlesApi.GetById`.
- ArticleStore.FormatArticle: the read time is an integer column, so
  `(int)` returns the stored value; PHP's conversion of a non-numeric
  string is not modelled.
- `session_destroy` is modelled as clearing the session for later requests.
  The session cookie, and the `$_SESSION` array still populated in the same
  request, are not modelled.
- Auth.FindActive: with two active rows of the same name, the first row in
  table order wins. The model takes the order of the `admins` sequence.
- React rendering, styling, the two-second reset timer, the upload button's
  fetch and alert, and the `checkingAuth` flag. The form reset itself is
  the `ResetAfterPublish` event.
- Non-ASCII `toLowerCase`. The slug model lower-cases ASCII letters only,
  so a non-ASCII capital whose lower case is an ASCII letter (the Kelvin
  sign) becomes '-' here rather than a letter.
- AdminForm.ClientReadTime: JavaScript counts UTF-16 code units and the
  model counts code points. They agree on the Basic Multilingual Plane.
- AdminForm.SanitizeSlug: the model maps characters (code points), while
  the JavaScript regular expression without the `u` flag sees UTF-16 code
  units. A slug input "😀" (U+1F600) becomes "--" in the browser and "-"
  here. The two agree on the Basic Multilingual Plane.
- AdminForm.Prefix: `slice(0, n)` counts UTF-16 code units, and the model
  counts code points. Seventy emoji are cut to 35 by the 70-unit meta-title
  cap in the browser, and kept whole here.
- JSON values of the wrong type. The request body is typed per key
  (`tags` is a list of strings, the text keys are strings), so the
  `is_array` guards (`api/articles.php:170`, `api/articles.php:237`) are
  always taken when `tags` is present: a non-array `tags`, which the source
  skips on create and which leaves the links alone on update, is not
  modelled. Likewise PHP `empty()` is modelled on strings only, not on
  `0` or `false` given for a required key.
- A rejected `fetch` (a network failure) and the `console.error` in every
  client `catch` (`services/apiService.ts:29-31` and the other handlers).
  A `Reply` always carries a status; the rethrown error is the one the
  model returns.
- ApiClient.ReadValueOrError: the message of a failed JSON parse of the
  error body is abstracted to `BadJson`.
- The exception handler (`api/articles.php:36-39`) answers 500 with the exception's message. The model keeps the status and abstracts the message to `DatabaseError`. The only database failure it models is a duplicate article id on create.
- Files with no logic to model: `services/geminiService.ts`,
  `services/authService.ts`, `api/authors.php`, `api/index.php`,
  `constants.ts`, the presentational components and
  `components/AdminPage.tsx`. The client's `fetchAuthors` is modelled only
  as its request.

=== FILE: admin_form.dfy ===
/** The pure logic of the article editor in components/EnhancedAdminPage.tsx:
    the slug derived from the title, the manual slug sanitiser, the SEO
    length caps, and how `handleSubmit` turns the form into an article
    draft (tag parsing, read time, image fallbacks).

    Strings are sequences of code points; JavaScript counts UTF-16 units,
    which agree on the Basic Multilingual Plane. */
module AdminForm {

  import opened Wrappers
  import opened Text
  import opened Types

  // ---------------------------------------------------------------------
  // Slugs

  /** `[a-z0-9]`. */
  predicate IsSlugAlnum(c: char) {
    'a' <= c <= 'z' || '0' <= c <= '9'
  }

  /** `[a-z0-9-]`. */
  predicate IsSlugChar(c: char) {
    IsSlugAlnum(c) || c == '-'
  }

  predicate AllSlugChars(s: string) {
    forall i :: 0 <= i < |s| ==> IsSlugChar(s[i])
  }

  predicate NoDoubleDash(s: string) {
    forall i :: 0 <= i < |s| - 1 ==> !(s[i] == '-' && s[i + 1] == '-')
  }

  predicate NoEdgeDash(s: string) {
    s == [] || (s[0] != '-' && s[|s| - 1] != '-')
  }

  /** What the auto slug always is: lower-case letters and digits joined by
      single dashes. */
  predicate IsCleanSlug(s: string) {
    AllSlugChars(s) && NoDoubleDash(s) && NoEdgeDash(s)
  }

  /** The `[a-z0-9]` characters of `s`, in order. */
  function Alnums(s: string): string {
    if |s| == 0 then ""
    else if IsSlugAlnum(s[0]) then [s[0]] + Alnums(s[1..])
    else Alnums(s[1..])
  }

  /** `.replace(/[^a-z0-9]+/g, '-')` scanning left to right: every maximal
      run of other characters becomes one '-'. `inRun` says the character
      before `s` was already part of a replaced run. */
  function CollapseRuns(s: string, inRun: bool): (r: string)
    ensures AllSlugChars(r) && NoDoubleDash(r)
    ensures inRun ==> r == [] || r[0] != '-'
    ensures Alnums(r) == Alnums(s)
    ensures |r| <= |s|
  {
    if |s| == 0 then ""
    else if IsSlugAlnum(s[0]) then
      var rest := CollapseRuns(s[1..], false);
      assert ([s[0]] + rest)[1..] == rest;
      [s[0]] + rest
    else if inRun then CollapseRuns(s[1..], true)
    else
      var rest := CollapseRuns(s[1..], true);
      assert ("-" + rest)[1..] == rest;
      "-" + rest
  }

  /** `.replace(/(^-|-$)/g, '')`: drops one '-' at the front and one at the
      back. */
  function StripEdgeDashes(s: string): string {
    var a := if |s| > 0 && s[0] == '-' then s[1..] else s;
    if |a| > 0 && a[|a| - 1] == '-' then a[..|a| - 1] else a
  }

  /** Dashes carry no letters: stripping them keeps the `[a-z0-9]`
      characters. */
  lemma {:induction false} AlnumsAppend(a: string, b: string)
    ensures Alnums(a + b) == Alnums(a) + Alnums(b)
    decreases |a|
  {
    if |a| > 0 {
      assert (a + b)[0] == a[0] && (a + b)[1..] == a[1..] + b;
      AlnumsAppend(a[1..], b);
    } else {
      assert a + b == b;
    }
  }

  /** On a collapsed string, stripping the edges leaves a clean slug with the
      same letters and digits. */
  lemma StripCollapsed(s: string)
    requires AllSlugChars(s) && NoDoubleDash(s)
    ensures IsCleanSlug(StripEdgeDashes(s))
    ensures Alnums(StripEdgeDashes(s)) == Alnums(s)
  {
    var a := if |s| > 0 && s[0] == '-' then s[1..] else s;
    if |s| > 0 && s[0] == '-' {
      AlnumsAppend("-", a);
      assert s == "-" + a;
    }
    if |a| > 0 && a[|a| - 1] == '-' {
      var b := a[..|a| - 1];
      AlnumsAppend(b, "-");
      assert a == b + "-";
    }
  }

  /** A run of `[a-z0-9]` characters. */
  predicate IsWord(w: string) {
    w != "" && forall i :: 0 <= i < |w| ==> IsSlugAlnum(w[i])
  }

  /** The length of the `[a-z0-9]` run at the front of `s`. */
  function RunLength(s: string): (n: nat)
    ensures n <= |s|
    ensures forall i :: 0 <= i < n ==> IsSlugAlnum(s[i])
    ensures n < |s| ==> !IsSlugAlnum(s[n])
  {
    if |s| == 0 || !IsSlugAlnum(s[0]) then 0 else 1 + RunLength(s[1..])
  }

  /** The maximal `[a-z0-9]` runs of `s`, in order. */
  function Words(s: string): (ws: seq<string>)
    ensures forall i :: 0 <= i < |ws| ==> IsWord(ws[i])
    decreases |s|
  {
    if |s| == 0 then []
    else if !IsSlugAlnum(s[0]) then Words(s[1..])
    else
      var n := RunLength(s);
      [s[..n]] + Words(s[n..])
  }

  /** There are no words exactly when there is no letter or digit. */
  lemma {:induction false} WordsEmpty(s: string)
    ensures Words(s) == [] <==> forall i :: 0 <= i < |s| ==> !IsSlugAlnum(s[i])
    decreases |s|
  {
    if |s| > 0 && !IsSlugAlnum(s[0]) {
      WordsEmpty(s[1..]);
      assert forall i :: 1 <= i < |s| ==> s[i] == s[1..][i - 1];
    }
  }

  /** Words joined by dashes start and end with a letter or digit. */
  lemma {:induction false} JoinWordEdges(ws: seq<string>)
    requires forall i :: 0 <= i < |ws| ==> IsWord(ws[i])
    ensures var j := Join(ws, '-'); |ws| > 0 ==> |j| > 0 && IsSlugAlnum(j[0]) && IsSlugAlnum(j[|j| - 1])
  {
    if |ws| >= 2 {
      JoinWordEdges(ws[1..]);
      JoinCons(ws, '-');
      assert IsWord(ws[0]);
    } else if |ws| == 1 {
      assert IsWord(ws[0]);
    }
  }

  lemma Associate(a: string, b: string, c: string)
    ensures a + (b + c) == (a + b) + c
  {
  }

  /** Collapsing copies a leading run of letters and digits unchanged. */
  lemma {:induction false} CollapseCopiesRun(s: string)
    ensures CollapseRuns(s, false) == s[..RunLength(s)] + CollapseRuns(s[RunLength(s)..], false)
    decreases |s|
  {
    var n := RunLength(s);
    if n > 0 {
      var tail := s[1..];
      assert RunLength(tail) == n - 1;
      assert CollapseRuns(s, false) == [s[0]] + CollapseRuns(tail, false);
      CollapseCopiesRun(tail);
      assert tail[..n - 1] == s[1..n] && tail[n - 1..] == s[n..];
      assert s[..n] == [s[0]] + s[1..n];
      Associate([s[0]], s[1..n], CollapseRuns(s[n..], false));
    }
  }

  /** `s` ends in other characters after at least one word. */
  predicate EndsInGap(s: string) {
    |s| > 0 && Words(s) != [] && !IsSlugAlnum(s[|s| - 1])
  }

  /** The words of `s` joined by single dashes, with one more dash when `s`
      ends in other characters after a word. */
  function DashedWords(s: string): string {
    Join(Words(s), '-') + (if EndsInGap(s) then "-" else "")
  }

  /** A word that ends the string is copied as it is. */
  lemma WordAtEnd(s: string, w: string)
    requires IsWord(w) && s == w
    requires CollapseRuns(s, true) == w + CollapseRuns("", false)
    requires Words(s) == [w] + Words("")
    ensures CollapseRuns(s, true) == DashedWords(s)
  {
    assert Words(s) == [w];
    assert IsSlugAlnum(w[|w| - 1]);
    assert !EndsInGap(s);
    assert w + "" == w;
  }

  /** A word followed only by other characters collapses to the word and
      one dash. */
  lemma WordThenGap(s: string, w: string, rest: string)
    requires |s| > 0 && rest != [] && !IsSlugAlnum(s[|s| - 1])
    requires CollapseRuns(s, true) == w + CollapseRuns(rest, false)
    requires CollapseRuns(rest, false) == "-" + CollapseRuns(rest, true)
    requires CollapseRuns(rest, true) == DashedWords(rest)
    requires Words(rest) == [] && Words(s) == [w] + Words(rest)
    ensures CollapseRuns(s, true) == DashedWords(s)
  {
    assert Words(s) == [w];
    assert !EndsInGap(rest) && EndsInGap(s);
    assert DashedWords(rest) == "";
    assert "-" + "" == "-";
  }

  /** A word followed by a gap and more words: the word, one dash, and the
      rest's dashed words. */
  lemma WordThenWords(s: string, w: string, rest: string)
    requires |s| > 0 && |rest| > 0 && s[|s| - 1] == rest[|rest| - 1]
    requires CollapseRuns(s, true) == w + CollapseRuns(rest, false)
    requires CollapseRuns(rest, false) == "-" + CollapseRuns(rest, true)
    requires CollapseRuns(rest, true) == DashedWords(rest)
    requires Words(rest) != [] && Words(s) == [w] + Words(rest)
    ensures CollapseRuns(s, true) == DashedWords(s)
  {
    var ws := Words(rest);
    var tl := if EndsInGap(rest) then "-" else "";
    assert EndsInGap(s) == EndsInGap(rest);
    JoinCons([w] + ws, '-');
    assert ([w] + ws)[1..] == ws;
    Regroup(w, "-", Join(ws, '-'), tl);
  }

  lemma Regroup(a: string, b: string, c: string, d: string)
    ensures a + (b + c) + d == a + (b + (c + d))
  {
  }

  /** A string that starts with a word: collapsing copies the word, and the
      word is the first of the words. */
  lemma WordSplit(s: string)
    requires |s| > 0 && IsSlugAlnum(s[0])
    ensures var n := RunLength(s);
      && CollapseRuns(s, true) == s[..n] + CollapseRuns(s[n..], false)
      && Words(s) == [s[..n]] + Words(s[n..])
      && IsWord(s[..n])
      && (n < |s| ==> !IsSlugAlnum(s[n..][0]) && s[|s| - 1] == s[n..][|s[n..]| - 1])
      && (n == |s| ==> s[..n] == s)
  {
    CollapseCopiesRun(s);
  }

  /** A gap at the front collapses to one dash. */
  lemma GapStart(r: string)
    requires |r| > 0 && !IsSlugAlnum(r[0])
    ensures CollapseRuns(r, false) == "-" + CollapseRuns(r, true)
  {
  }

  /** Without words the last character is not a letter or digit. */
  lemma NoWordsLast(r: string)
    requires |r| > 0 && Words(r) == []
    ensures !IsSlugAlnum(r[|r| - 1])
  {
    WordsEmpty(r);
  }

  /** A leading word is copied, then the rest collapses after it. */
  lemma CollapseAfterWord(s: string)
    requires |s| > 0 && IsSlugAlnum(s[0])
    requires CollapseRuns(s[RunLength(s)..], true) == DashedWords(s[RunLength(s)..])
    ensures CollapseRuns(s, true) == DashedWords(s)
  {
    var n := RunLength(s);
    var w, rest := s[..n], s[n..];
    WordSplit(s);
    if |rest| == 0 {
      WordAtEnd(s, w);
    } else {
      GapStart(rest);
      if Words(rest) == [] {
        NoWordsLast(rest);
        WordThenGap(s, w, rest);
      } else {
        WordThenWords(s, w, rest);
      }
    }
  }

  /** Where the dashes go: after a replaced run, collapsing yields the words
      of `s` joined by single dashes, plus one dash when `s` ends in other
      characters after a word. */
  lemma {:induction false} CollapseWords(s: string)
    ensures CollapseRuns(s, true) == DashedWords(s)
    decreases |s|
  {
    if |s| > 0 {
      if !IsSlugAlnum(s[0]) {
        CollapseWords(s[1..]);
        assert Words(s) == Words(s[1..]);
        if |s| > 1 {
          assert s[1..][|s| - 2] == s[|s| - 1];
        }
        assert EndsInGap(s) == EndsInGap(s[1..]);
      } else {
        CollapseWords(s[RunLength(s)..]);
        CollapseAfterWord(s);
      }
    }
  }

  /** Collapsing from the start adds one dash for a leading gap. */
  lemma LeadingGap(s: string)
    ensures CollapseRuns(s, false) == (if |s| > 0 && !IsSlugAlnum(s[0]) then "-" else "") + CollapseRuns(s, true)
  {
    if |s| > 0 && !IsSlugAlnum(s[0]) {
      GapStart(s);
    } else if |s| > 0 {
      assert CollapseRuns(s, true) == [s[0]] + CollapseRuns(s[1..], false);
      assert CollapseRuns(s, false) == [s[0]] + CollapseRuns(s[1..], false);
      assert "" + CollapseRuns(s, true) == CollapseRuns(s, true);
    } else {
      assert CollapseRuns(s, true) == "" && CollapseRuns(s, false) == "";
    }
  }

  /** Stripping one dash from each end of `lead + j + tail` leaves `j` when
      `j` has no dash at its ends. */
  lemma StripAround(lead: string, j: string, tail: string)
    requires lead == "" || lead == "-"
    requires tail == "" || tail == "-"
    requires j == "" ==> tail == ""
    requires j != "" ==> j[0] != '-' && j[|j| - 1] != '-'
    ensures StripEdgeDashes(lead + (j + tail)) == j
  {
    var a := if lead == "-" then (lead + (j + tail))[1..] else lead + (j + tail);
    assert a == j + tail;
    if tail == "-" {
      assert a[..|a| - 1] == j;
    } else {
      assert a == j;
    }
  }

  /** Stripping the edge dashes of the collapsed string leaves exactly the
      words joined by single dashes. */
  lemma StripWords(s: string)
    ensures StripEdgeDashes(CollapseRuns(s, false)) == Join(Words(s), '-')
  {
    var ws := Words(s);
    var j := Join(ws, '-');
    CollapseWords(s);
    JoinWordEdges(ws);
    LeadingGap(s);
    StripAround(if |s| > 0 && !IsSlugAlnum(s[0]) then "-" else "", j, if EndsInGap(s) then "-" else "");
  }

  /** The auto-slug transform of the title effect: the title's lower-cased
      words joined by single dashes ("Hello World" gives "hello-world"). */
  function AutoSlug(title: string): (slug: string)
    ensures IsCleanSlug(slug)
    ensures Alnums(slug) == Alnums(LowerAsciiString(title))
    ensures slug == Join(Words(LowerAsciiString(title)), '-')
  {
    var collapsed := CollapseRuns(LowerAsciiString(title), false);
    StripCollapsed(collapsed);
    StripWords(LowerAsciiString(title));
    StripEdgeDashes(collapsed)
  }

  /** Collapsing a string that already has single dashes between its other
      characters changes nothing. */
  lemma {:induction false} CollapseFixed(s: string, inRun: bool)
    requires AllSlugChars(s) && NoDoubleDash(s)
    requires inRun ==> s == [] || s[0] != '-'
    ensures CollapseRuns(s, inRun) == s
    decreases |s|
  {
    if |s| > 0 {
      CollapseFixed(s[1..], !IsSlugAlnum(s[0]));
      assert [s[0]] + s[1..] == s;
    }
  }

  /** A clean slug is its own auto slug. */
  lemma CleanSlugFixed(s: string)
    requires IsCleanSlug(s)
    ensures AutoSlug(s) == s
  {
    assert LowerAsciiString(s) == s;
    CollapseFixed(s, false);
  }

  /** The auto slug is idempotent. */
  lemma AutoSlugIdempotent(title: string)
    ensures AutoSlug(AutoSlug(title)) == AutoSlug(title)
  {
    CleanSlugFixed(AutoSlug(title));
  }

  /** The slug input's handler:
      `toLowerCase().replace(/[^a-z0-9-]/g, '-')`, one character for one. */
  function SanitizeSlug(s: string): (r: string)
    ensures |r| == |s| && AllSlugChars(r)
    ensures forall i :: 0 <= i < |s| && IsSlugChar(LowerAscii(s[i])) ==> r[i] == LowerAscii(s[i])
    ensures forall i :: 0 <= i < |s| && !IsSlugChar(LowerAscii(s[i])) ==> r[i] == '-'
  {
    seq(|s|, i requires 0 <= i < |s| => if IsSlugChar(LowerAscii(s[i])) then LowerAscii(s[i]) else '-')
  }

  /** The sanitiser leaves slug characters alone: it is idempotent, and an
      auto slug passes through it unchanged. */
  lemma SanitizeFixed(s: string)
    ensures AllSlugChars(s) ==> SanitizeSlug(s) == s
    ensures SanitizeSlug(SanitizeSlug(s)) == SanitizeSlug(s)
    ensures SanitizeSlug(AutoSlug(s)) == AutoSlug(s)
  {
    var t := AutoSlug(s);
    assert forall i :: 0 <= i < |t| ==> LowerAscii(t[i]) == t[i];
  }

  /** JavaScript `s.slice(0, n)`. */
  function Prefix(s: string, n: nat): (r: string)
    ensures |r| <= n && IsPrefix(r, s)
    ensures |s| <= n ==> r == s
    ensures |s| >= n ==> |r| == n
  {
    if |s| <= n then s else s[..n]
  }

  const MetaTitleMax: nat := 70
  const MetaDescriptionMax: nat := 160

  // ---------------------------------------------------------------------
  // The form

  datatype Form = Form(
    title: string, summary: string, content: string, category: Category, tags: string,
    isTopStory: bool, metaTitle: string, metaDescription: string, metaKeywords: string,
    slug: string, thumbnailUrl: string, imageUrl: string, ogImage: string)

  /** The `useState` initial values, which the reset after publishing also
      restores. */
  const Blank: Form := Form("", "", "", News, "", false, "", "", "", "", "", "", "")

  /** The inputs the user can change. Each edit replaces one field; the
      slug and SEO fields go through their handlers. */
  datatype FormEvent =
    | EditTitle(title: string)
    | EditSummary(summary: string)
    | EditContent(content: string)
    | PickCategory(category: Category)
    | EditTags(tags: string)
    | SetTopStory(isTopStory: bool)
    | EditSlug(slug: string)
    | EditMetaTitle(metaTitle: string)
    | EditMetaDescription(metaDescription: string)
    | EditMetaKeywords(metaKeywords: string)
    | SetThumbnail(url: string)
    | SetImage(url: string)
    | SetOgImage(url: string)
    | ResetAfterPublish

  /** The two effects that depend on `[title]`: they run only when the title
      changed, and fill the slug and meta title only while those are empty. */
  function TitleEffects(f: Form, previousTitle: string): (r: Form)
    ensures r == f.(slug := r.slug, metaTitle := r.metaTitle)
    ensures f.slug != "" || f.title == "" || f.title == previousTitle ==> r.slug == f.slug
    ensures f.slug == "" && f.title != "" && f.title != previousTitle ==> r.slug == AutoSlug(f.title)
    ensures f.metaTitle != "" || f.title == "" || f.title == previousTitle ==> r.metaTitle == f.metaTitle
    ensures f.metaTitle == "" && f.title != "" && f.title != previousTitle ==>
              r.metaTitle == Prefix(f.title, MetaTitleMax)
  {
    if f.title == previousTitle then f
    else
      var slug := if f.title != "" && f.slug == "" then AutoSlug(f.title) else f.slug;
      var metaTitle := if f.title != "" && f.metaTitle == "" then Prefix(f.title, MetaTitleMax) else f.metaTitle;
      f.(slug := slug, metaTitle := metaTitle)
  }

  /** The state setter an event calls, before any effect runs: each input
      writes its one field through its handler, and the reset after
      publishing restores every initial value. */
  function Edit(f: Form, e: FormEvent): Form {
    match e
    case EditTitle(t) => f.(title := t)
    case EditSummary(s) => f.(summary := s)
    case EditContent(c) => f.(content := c)
    case PickCategory(c) => f.(category := c)
    case EditTags(t) => f.(tags := t)
    case SetTopStory(b) => f.(isTopStory := b)
    case EditSlug(s) => f.(slug := SanitizeSlug(s))
    case EditMetaTitle(s) => f.(metaTitle := Prefix(s, MetaTitleMax))
    case EditMetaDescription(s) => f.(metaDescription := Prefix(s, MetaDescriptionMax))
    case EditMetaKeywords(s) => f.(metaKeywords := s)
    case SetThumbnail(u) => f.(thumbnailUrl := u)
    case SetImage(u) => f.(imageUrl := u)
    case SetOgImage(u) => f.(ogImage := u)
    case ResetAfterPublish => Blank
  }

  /** One user action followed by the effects it triggers. The title
      effects depend on `[title]`, so they do something only after an event
      that changed the title. */
  function Apply(f: Form, e: FormEvent): (r: Form)
    ensures FormInvariant(f) ==> FormInvariant(r)
    ensures r.title == (if e.EditTitle? then e.title else if e.ResetAfterPublish? then "" else f.title)
    ensures e.EditTitle? ==> r == TitleEffects(f.(title := e.title), f.title)
    ensures e.EditSummary? ==> r == f.(summary := e.summary)
    ensures e.EditContent? ==> r == f.(content := e.content)
    ensures e.PickCategory? ==> r == f.(category := e.category)
    ensures e.EditTags? ==> r == f.(tags := e.tags)
    ensures e.SetTopStory? ==> r == f.(isTopStory := e.isTopStory)
    ensures e.EditSlug? ==> r == f.(slug := SanitizeSlug(e.slug))
    ensures e.EditMetaTitle? ==> r == f.(metaTitle := Prefix(e.metaTitle, MetaTitleMax))
    ensures e.EditMetaDescription? ==> r == f.(metaDescription := Prefix(e.metaDescription, MetaDescriptionMax))
    ensures e.EditMetaKeywords? ==> r == f.(metaKeywords := e.metaKeywords)
    ensures e.SetThumbnail? ==> r == f.(thumbnailUrl := e.url)
    ensures e.SetImage? ==> r == f.(imageUrl := e.url)
    ensures e.SetOgImage? ==> r == f.(ogImage := e.url)
    ensures e.ResetAfterPublish? ==> r == Blank
  {
    TitleEffects(Edit(f, e), f.title)
  }

  /** A session of edits from the blank form. */
  function Run(events: seq<FormEvent>): Form {
    if |events| == 0 then Blank else Apply(Run(events[..|events| - 1]), events[|events| - 1])
  }

  /** What every reachable form satisfies: the SEO caps hold and the slug is
      made of slug characters. */
  predicate FormInvariant(f: Form) {
    |f.metaTitle| <= MetaTitleMax && |f.metaDescription| <= MetaDescriptionMax && AllSlugChars(f.slug)
  }

  /** Every event keeps the invariant. */
  lemma ApplyKeepsInvariant(f: Form, e: FormEvent)
    requires FormInvariant(f)
    ensures FormInvariant(Apply(f, e))
  {
  }

  /** However the user edits, the meta title stays within 70 characters, the
      meta description within 160, and the slug within `[a-z0-9-]`. */
  lemma {:induction false} RunKeepsInvariant(events: seq<FormEvent>)
    ensures FormInvariant(Run(events))
  {
    if |events| > 0 {
      RunKeepsInvariant(events[..|events| - 1]);
      ApplyKeepsInvariant(Run(events[..|events| - 1]), events[|events| - 1]);
    }
  }

  /** The slug is generated only from a non-empty title into an empty slug;
      a slug that is already there is never overwritten by a title edit. */
  lemma TitleEditSlug(f: Form, t: string)
    ensures f.slug != "" ==> Apply(f, EditTitle(t)).slug == f.slug
    ensures t == "" ==> Apply(f, EditTitle(t)).slug == f.slug
    ensures f.slug == "" && t != "" && t != f.title ==> Apply(f, EditTitle(t)).slug == AutoSlug(t)
    ensures f.metaTitle != "" ==> Apply(f, EditTitle(t)).metaTitle == f.metaTitle
  {
  }

  // ---------------------------------------------------------------------
  // Submitting

  /** `tags.split(',').map(t => t.trim()).filter(Boolean)` after the split. */
  function CleanTags(parts: seq<string>): (tags: seq<string>)
    ensures |tags| <= |parts|
    ensures forall i :: 0 <= i < |tags| ==> tags[i] != "" && IsTrimmed(tags[i], IsJsSpace)
    ensures (forall i :: 0 <= i < |parts| ==> ',' !in parts[i]) ==> forall i :: 0 <= i < |tags| ==> ',' !in tags[i]
    ensures |parts| == 1 ==> tags == (if Trim(parts[0], IsJsSpace) == "" then [] else [Trim(parts[0], IsJsSpace)])
  {
    if |parts| == 0 then []
    else
      var t := Trim(parts[0], IsJsSpace);
      var rest := CleanTags(parts[1..]);
      assert forall i :: 0 <= i < |parts[1..]| ==> parts[1..][i] == parts[i + 1];
      if t == "" then rest else [t] + rest
  }

  /** Cleaning works piece by piece: it keeps the order of the pieces it
      keeps. With the single-piece case this pins the function down. */
  lemma {:induction false} CleanTagsAppend(a: seq<string>, b: seq<string>)
    ensures CleanTags(a + b) == CleanTags(a) + CleanTags(b)
    decreases |a|
  {
    if |a| == 0 {
      assert a + b == b;
    } else {
      assert (a + b)[0] == a[0] && (a + b)[1..] == a[1..] + b;
      CleanTagsAppend(a[1..], b);
    }
  }

  /** The tag field parsed into names. */
  function ParseTags(s: string): (tags: seq<string>)
    ensures forall i :: 0 <= i < |tags| ==> tags[i] != "" && IsTrimmed(tags[i], IsJsSpace) && ',' !in tags[i]
    ensures ',' !in s ==> tags == (if Trim(s, IsJsSpace) == "" then [] else [Trim(s, IsJsSpace)])
  {
    SplitWithoutSep(s, ',');
    CleanTags(Split(s, ','))
  }

  /** Parsing works comma-separated piece by piece: the tags of `a,b` are
      those of `a` followed by those of `b`. With the comma-free case this
      pins the parse down. */
  lemma ParseTagsAppend(a: string, b: string)
    ensures ParseTags(a + "," + b) == ParseTags(a) + ParseTags(b)
  {
    var pa, pb := Split(a, ','), Split(b, ',');
    JoinAppend(pa, pb, ',');
    assert a + "," + b == Join(pa, ',') + [','] + Join(pb, ',');
    assert forall i :: 0 <= i < |pa + pb| ==> ',' !in (pa + pb)[i];
    SplitJoin(pa + pb, ',');
    CleanTagsAppend(pa, pb);
  }

  /** A name already in parsed form survives cleaning as itself, in front
      of whatever the rest cleans to. */
  lemma CleanTagsCons(head: string, rest: seq<string>)
    requires head != "" && IsTrimmed(head, IsJsSpace)
    ensures CleanTags([head] + rest) == [head] + CleanTags(rest)
  {
    var parts := [head] + rest;
    assert parts[0] == head && parts[1..] == rest;
    TrimFixedPoint(head, IsJsSpace);
  }

  /** A list of names already in parsed form comes back unchanged. */
  lemma {:induction false} CleanTagsFixed(tags: seq<string>)
    requires forall i :: 0 <= i < |tags| ==> tags[i] != "" && IsTrimmed(tags[i], IsJsSpace)
    ensures CleanTags(tags) == tags
  {
    if |tags| > 0 {
      var head, rest := tags[0], tags[1..];
      assert tags == [head] + rest;
      CleanTagsFixed(rest);
      CleanTagsCons(head, rest);
    }
  }

  /** Writing a parsed tag list back as comma-separated text and parsing it
      again gives the same list. */
  lemma ParseTagsRoundTrip(tags: seq<string>)
    requires forall i :: 0 <= i < |tags| ==> tags[i] != "" && IsTrimmed(tags[i], IsJsSpace) && ',' !in tags[i]
    ensures ParseTags(Join(tags, ',')) == tags
  {
    if |tags| == 0 {
      assert Split("", ',') == [""];
    } else {
      SplitJoin(tags, ',');
      CleanTagsFixed(tags);
    }
  }

  /** `Math.ceil(content.length / 1000) || 5`: a minute per thousand
      characters, and 5 for empty content (where the ceiling is the falsy 0). */
  function ClientReadTime(content: string): (minutes: int)
    ensures minutes >= 1
    ensures content == "" ==> minutes == 5
    ensures content != "" ==> (minutes - 1) * 1000 < |content| <= minutes * 1000
  {
    if |content| == 0 then 5 else (|content| + 999) / 1000
  }

  /** JavaScript `a || b` on strings. */
  function Or(a: string, b: string): (r: string)
    ensures r == a || r == b
    ensures r == "" <==> a == "" && b == ""
  {
    if a != "" then a else b
  }

  /** The placeholder picture, seeded with `Date.now()`. */
  function Placeholder(nowMillis: nat): string {
    "https://picsum.photos/seed/" + Decimal(nowMillis) + "/800/600"
  }

  /** The article image: the featured image, else the thumbnail, else the
      placeholder. */
  function ArticleImage(f: Form, nowMillis: nat): (url: string)
    ensures url != ""
    ensures f.imageUrl != "" ==> url == f.imageUrl
    ensures f.imageUrl == "" && f.thumbnailUrl != "" ==> url == f.thumbnailUrl
    ensures f.imageUrl == "" && f.thumbnailUrl == "" ==> url == Placeholder(nowMillis)
  {
    Or(Or(f.imageUrl, f.thumbnailUrl), Placeholder(nowMillis))
  }

  /** The author object every submission carries. */
  const Editor: Author := Author("admin", "Admin", "", "Editor")

  /** The object `handleSubmit` passes to `createArticle`. */
  datatype Draft = Draft(
    title: string, summary: string, content: string, category: Category, author: Author,
    publishedAt: string, imageUrl: string, tags: seq<string>, readTimeMinutes: int,
    isTopStory: bool, metaTitle: string, metaDescription: string, metaKeywords: string,
    slug: string, thumbnailUrl: string, ogImage: string)

  /** `handleSubmit`'s payload; `nowIso` and `nowMillis` are the clock. */
  function Submit(f: Form, nowIso: string, nowMillis: nat): (d: Draft)
    ensures d.imageUrl != "" && d.readTimeMinutes >= 1
    ensures forall i :: 0 <= i < |d.tags| ==> d.tags[i] != "" && ',' !in d.tags[i]
    ensures d.ogImage == (if f.ogImage != "" then f.ogImage else f.thumbnailUrl)
    ensures d.title == f.title && d.summary == f.summary && d.content == f.content && d.slug == f.slug
    ensures d.imageUrl == ArticleImage(f, nowMillis)
    ensures d.readTimeMinutes == ClientReadTime(f.content)
    ensures d.tags == ParseTags(f.tags)
    ensures d.category == f.category && d.isTopStory == f.isTopStory
    ensures d.author == Editor && d.publishedAt == nowIso
    ensures d.metaTitle == f.metaTitle && d.metaDescription == f.metaDescription && d.metaKeywords == f.metaKeywords
    ensures d.thumbnailUrl == f.thumbnailUrl
  {
    Draft(
      f.title, f.summary, f.content, f.category, Editor, nowIso,
      ArticleImage(f, nowMillis), ParseTags(f.tags), ClientReadTime(f.content),
      f.isTopStory, f.metaTitle, f.metaDescription, f.metaKeywords, f.slug,
      f.thumbnailUrl, Or(f.ogImage, f.thumbnailUrl))
  }
}

=== FILE: api_client.dfy ===
/** The REST client of services/apiService.ts: the requests its six calls
    send, how query values and ids are percent-encoded, and how a reply
    becomes a value or an error.

    Encodings follow the WHATWG URL Standard: `URLSearchParams` serialises
    with the application/x-www-form-urlencoded byte serializer (section 5.2),
    and `encodeURIComponent` is section 19.2.6.5 of ECMA-262. Both work on
    the UTF-8 bytes of the text. */
module ApiClient {

  import opened Wrappers
  import opened Text
  import Utf8
  import opened Types
  import ArticlesApi

  type Byte = Utf8.Byte

  // ---------------------------------------------------------------------
  // Percent-encoding

  predicate IsHexDigit(c: char) {
    '0' <= c <= '9' || 'A' <= c <= 'F' || 'a' <= c <= 'f'
  }

  /** An upper-case hex digit, as both encoders write them. */
  function HexDigit(n: nat): (c: char)
    requires n < 16
    ensures IsHexDigit(c)
  {
    if n < 10 then ('0' as int + n) as char else ('A' as int + n - 10) as char
  }

  function HexValue(c: char): (n: nat)
    requires IsHexDigit(c)
    ensures n < 16
  {
    if '0' <= c <= '9' then c as int - '0' as int
    else if 'A' <= c <= 'F' then c as int - 'A' as int + 10
    else c as int - 'a' as int + 10
  }

  lemma HexRoundTrip(n: nat)
    requires n < 16
    ensures HexValue(HexDigit(n)) == n
  {
  }

  /** `%XY` for one byte. */
  function Percent(b: Byte): string {
    ['%', HexDigit(b / 16), HexDigit(b % 16)]
  }

  /** Bytes the form serializer leaves as they are: `*-._`, digits and
      letters. */
  predicate IsFormLiteral(b: Byte) {
    b == 0x2A || b == 0x2D || b == 0x2E || b == 0x5F
    || (0x30 <= b <= 0x39) || (0x41 <= b <= 0x5A) || (0x61 <= b <= 0x7A)
  }

  /** Bytes `encodeURIComponent` leaves as they are: letters, digits and
      `-_.!~*'()`. */
  predicate IsUriLiteral(b: Byte) {
    IsFormLiteral(b) || b == 0x21 || b == 0x27 || b == 0x28 || b == 0x29 || b == 0x7E
  }

  /** The characters that would end a query value early or start a
      fragment. */
  predicate IsDelimiter(c: char) {
    c == '&' || c == '=' || c == '#' || c == '?'
  }

  predicate NoDelimiter(s: string) {
    forall i :: 0 <= i < |s| ==> !IsDelimiter(s[i])
  }

  /** The decoding a query parser applies to a name or value: `+` is a
      space and `%XY` a byte; anything else must be an ASCII character. */
  function DecodeBytes(s: string): Option<seq<Byte>>
    decreases |s|
  {
    if |s| == 0 then Some([])
    else if s[0] == '%' then
      if |s| >= 3 && IsHexDigit(s[1]) && IsHexDigit(s[2]) then
        Prepend(HexValue(s[1]) * 16 + HexValue(s[2]), DecodeBytes(s[3..]))
      else None
    else if s[0] == '+' then Prepend(0x20, DecodeBytes(s[1..]))
    else if Utf8.IsAscii(s[0]) then Prepend(s[0] as int, DecodeBytes(s[1..]))
    else None
  }

  function Prepend(b: Byte, rest: Option<seq<Byte>>): Option<seq<Byte>> {
    match rest
    case Some(bs) => Some([b] + bs)
    case None => None
  }

  /** A percent-escape in front of encoded text decodes to its byte. */
  lemma DecodePercent(b: Byte, rest: string)
    ensures DecodeBytes(Percent(b) + rest) == Prepend(b, DecodeBytes(rest))
  {
    HexRoundTrip(b / 16);
    HexRoundTrip(b % 16);
    var s := Percent(b) + rest;
    assert s[0] == '%' && s[1] == HexDigit(b / 16) && s[2] == HexDigit(b % 16);
    assert s[3..] == rest;
  }

  /** A literal ASCII character other than `%` and `+` decodes to itself. */
  lemma DecodeLiteral(b: Byte, rest: string)
    requires b < 0x80 && b != 0x25 && b != 0x2B
    ensures DecodeBytes([b as char] + rest) == Prepend(b, DecodeBytes(rest))
  {
    var s := [b as char] + rest;
    assert s[0] == b as char && s[1..] == rest;
  }

  /** `+` decodes to a space. */
  lemma DecodePlus(rest: string)
    ensures DecodeBytes("+" + rest) == Prepend(0x20, DecodeBytes(rest))
  {
    var s := "+" + rest;
    assert s[0] == '+' && s[1..] == rest;
  }

  /** What the form serializer writes for one byte: space becomes `+`,
      literal bytes stay, every other byte is percent-encoded. */
  function FormHead(b: Byte): string {
    if b == 0x20 then "+" else if IsFormLiteral(b) then [b as char] else Percent(b)
  }

  /** What `encodeURIComponent` writes for one byte: literal bytes stay,
      every other byte is percent-encoded. */
  function UriHead(b: Byte): string {
    if IsUriLiteral(b) then [b as char] else Percent(b)
  }

  /** Each byte's encoding decodes to that byte and holds no delimiter. */
  lemma DecodeHead(b: Byte, rest: string)
    ensures DecodeBytes(FormHead(b) + rest) == Prepend(b, DecodeBytes(rest))
    ensures DecodeBytes(UriHead(b) + rest) == Prepend(b, DecodeBytes(rest))
    ensures NoDelimiter(FormHead(b)) && NoDelimiter(UriHead(b))
  {
    if b == 0x20 {
      DecodePlus(rest);
    }
    if IsFormLiteral(b) || IsUriLiteral(b) {
      DecodeLiteral(b, rest);
    }
    if !IsFormLiteral(b) || !IsUriLiteral(b) {
      DecodePercent(b, rest);
    }
  }

  /** Delimiter-free pieces make delimiter-free text. */
  lemma NoDelimiterAppend(a: string, b: string)
    requires NoDelimiter(a) && NoDelimiter(b)
    ensures NoDelimiter(a + b)
  {
    assert forall i :: 0 <= i < |a + b| ==> (a + b)[i] == (if i < |a| then a[i] else b[i - |a|]);
  }

  /** The form serializer on bytes. */
  function FormEncodeBytes(bs: seq<Byte>): (s: string)
    ensures DecodeBytes(s) == Some(bs)
    ensures NoDelimiter(s)
  {
    if |bs| == 0 then ""
    else
      var rest := FormEncodeBytes(bs[1..]);
      DecodeHead(bs[0], rest);
      NoDelimiterAppend(FormHead(bs[0]), rest);
      assert [bs[0]] + bs[1..] == bs;
      FormHead(bs[0]) + rest
  }

  /** `encodeURIComponent` on bytes. */
  function UriEncodeBytes(bs: seq<Byte>): (s: string)
    ensures DecodeBytes(s) == Some(bs)
    ensures NoDelimiter(s)
  {
    if |bs| == 0 then ""
    else
      var rest := UriEncodeBytes(bs[1..]);
      DecodeHead(bs[0], rest);
      NoDelimiterAppend(UriHead(bs[0]), rest);
      assert [bs[0]] + bs[1..] == bs;
      UriHead(bs[0]) + rest
  }

  /** A query name or value as `URLSearchParams` writes it. */
  function FormEncode(s: string): (e: string)
    ensures DecodeBytes(e) == Some(Utf8.Encode(s))
    ensures NoDelimiter(e)
  {
    FormEncodeBytes(Utf8.Encode(s))
  }

  /** `encodeURIComponent(s)`. */
  function UriEncode(s: string): (e: string)
    ensures DecodeBytes(e) == Some(Utf8.Encode(s))
    ensures NoDelimiter(e)
  {
    UriEncodeBytes(Utf8.Encode(s))
  }

  // ---------------------------------------------------------------------
  // Query strings

  /** `name=value`, both encoded. */
  function PairText(p: (string, string)): (t: string)
    ensures '&' !in t && '=' in t
  {
    var t := FormEncode(p.0) + "=" + FormEncode(p.1);
    assert t[|FormEncode(p.0)|] == '=';
    assert forall i :: 0 <= i < |t| ==> t[i] == '=' || !IsDelimiter(t[i]) by {
      forall i | 0 <= i < |t|
        ensures t[i] == '=' || !IsDelimiter(t[i])
      {
        if i < |FormEncode(p.0)| {
          assert t[i] == FormEncode(p.0)[i];
        } else if i > |FormEncode(p.0)| {
          assert t[i] == FormEncode(p.1)[i - |FormEncode(p.0)| - 1];
        }
      }
    }
    t
  }

  /** The `name=value` pieces of a parameter list. */
  function PairTexts(params: seq<(string, string)>): (pieces: seq<string>)
    ensures |pieces| == |params|
    ensures forall i :: 0 <= i < |params| ==> pieces[i] == PairText(params[i])
  {
    if |params| == 0 then [] else [PairText(params[0])] + PairTexts(params[1..])
  }

  /** `URLSearchParams.toString()`. The query string carries every
      parameter intact: the server decodes the same names and values, in
      order, and the string is empty exactly when there is no parameter. */
  function QueryString(params: seq<(string, string)>): (q: string)
    ensures DecodeQuery(q) == Some(WireBytes(params))
    ensures q == "" <==> |params| == 0
  {
    JoinedPairsRoundTrip(params);
    Join(PairTexts(params), '&')
  }

  /** Splits one `name=value` piece and decodes both halves. */
  function DecodePair(piece: string): Option<(seq<Byte>, seq<Byte>)> {
    var halves := Split(piece, '=');
    if |halves| != 2 then None
    else match (DecodeBytes(halves[0]), DecodeBytes(halves[1]))
      case (Some(n), Some(v)) => Some((n, v))
      case _ => None
  }

  function DecodePairs(pieces: seq<string>): Option<seq<(seq<Byte>, seq<Byte>)>> {
    if |pieces| == 0 then Some([])
    else match (DecodePair(pieces[0]), DecodePairs(pieces[1..]))
      case (Some(p), Some(ps)) => Some([p] + ps)
      case _ => None
  }

  /** One piece decodes as its pair. */
  lemma DecodeSinglePair(piece: string)
    ensures DecodePair(piece).Some? ==> DecodePairs([piece]) == Some([DecodePair(piece).value])
    ensures DecodePair(piece).None? ==> DecodePairs([piece]).None?
  {
    var ps := [piece];
    assert ps[0] == piece && ps[1..] == [];
    assert DecodePairs(ps[1..]) == Some([]);
    if DecodePair(piece).Some? {
      var p := DecodePair(piece).value;
      assert [p] + [] == [p];
    }
  }

  /** How the server reads a query string back into name/value bytes. */
  function DecodeQuery(q: string): Option<seq<(seq<Byte>, seq<Byte>)>> {
    if q == "" then Some([]) else DecodePairs(Split(q, '&'))
  }

  /** The bytes of each parameter as they travel. */
  function WireBytes(params: seq<(string, string)>): (wire: seq<(seq<Byte>, seq<Byte>)>)
    ensures |wire| == |params|
    ensures forall i :: 0 <= i < |params| ==> wire[i] == (Utf8.Encode(params[i].0), Utf8.Encode(params[i].1))
  {
    if |params| == 0 then [] else [(Utf8.Encode(params[0].0), Utf8.Encode(params[0].1))] + WireBytes(params[1..])
  }

  lemma DecodePairText(p: (string, string))
    ensures DecodePair(PairText(p)) == Some((Utf8.Encode(p.0), Utf8.Encode(p.1)))
  {
    var halves := [FormEncode(p.0), FormEncode(p.1)];
    assert Join(halves, '=') == PairText(p) by {
      assert halves[1..] == [FormEncode(p.1)];
    }
    assert forall i :: 0 <= i < 2 ==> '=' !in halves[i] by {
      assert forall c :: c in FormEncode(p.0) ==> !IsDelimiter(c);
      assert forall c :: c in FormEncode(p.1) ==> !IsDelimiter(c);
    }
    SplitJoin(halves, '=');
  }

  lemma {:induction false} DecodePairsTexts(params: seq<(string, string)>)
    ensures DecodePairs(PairTexts(params)) == Some(WireBytes(params))
  {
    if |params| > 0 {
      DecodePairText(params[0]);
      DecodePairsTexts(params[1..]);
      assert PairTexts(params)[1..] == PairTexts(params[1..]);
    }
  }

  /** The joined `name=value` pieces decode to the parameters' bytes. */
  lemma JoinedPairsRoundTrip(params: seq<(string, string)>)
    ensures DecodeQuery(Join(PairTexts(params), '&')) == Some(WireBytes(params))
    ensures Join(PairTexts(params), '&') == "" <==> |params| == 0
  {
    var pieces := PairTexts(params);
    var q := Join(pieces, '&');
    if |params| > 0 {
      assert forall i :: 0 <= i < |pieces| ==> '&' !in pieces[i];
      SplitJoin(pieces, '&');
      assert q != "" by {
        if |pieces| == 1 {
          assert '=' in pieces[0];
        } else {
          assert q == pieces[0] + "&" + Join(pieces[1..], '&');
        }
      }
      DecodePairsTexts(params);
    }
  }

  /** The UTF-8 decoding the server ends with gives back the very strings
      the client put in. */
  lemma ServerReadsSentStrings(params: seq<(string, string)>, i: nat, name: string, value: string)
    requires i < |params|
    requires (Utf8.Encode(name), Utf8.Encode(value)) == WireBytes(params)[i]
    ensures name == params[i].0 && value == params[i].1
  {
    WireBytesAt(params, i);
    EncodedPairInjective(name, value, params[i].0, params[i].1);
  }

  lemma WireBytesAt(params: seq<(string, string)>, i: nat)
    requires i < |params|
    ensures WireBytes(params)[i] == (Utf8.Encode(params[i].0), Utf8.Encode(params[i].1))
  {
  }

  /** Two pairs with the same encodings are the same pair. */
  lemma EncodedPairInjective(name: string, value: string, name': string, value': string)
    requires (Utf8.Encode(name), Utf8.Encode(value)) == (Utf8.Encode(name'), Utf8.Encode(value'))
    ensures name == name' && value == value'
  {
    Utf8.EncodeInjective(name, name');
    Utf8.EncodeInjective(value, value');
  }

  // ---------------------------------------------------------------------
  // Requests

  datatype HttpCall = HttpCall(verb: string, url: string)

  /** The parameters of `fetchArticles`: `category` when it is truthy and
      not "All", `search` when it is truthy. */
  function ArticleParams(category: Option<string>, search: Option<string>): (params: seq<(string, string)>)
    ensures |params| <= 2
    ensures forall i :: 0 <= i < |params| ==> params[i].0 == "category" || params[i].0 == "search"
    ensures |params| == 2 ==> category.Some? && search.Some? && params == [("category", category.value), ("search", search.value)]
    ensures |params| == 0 <==> (category.None? || category.value == "" || category.value == "All") && (search.None? || search.value == "")
  {
    (if category.Some? && category.value != "" && category.value != "All" then [("category", category.value)] else [])
    + (if search.Some? && search.value != "" then [("search", search.value)] else [])
  }

  /** The value sent for `name`, if any (the last one wins, as on the
      server). */
  function Lookup(params: seq<(string, string)>, name: string): Option<string> {
    if |params| == 0 then None
    else if params[|params| - 1].0 == name then Some(params[|params| - 1].1)
    else Lookup(params[..|params| - 1], name)
  }

  /** The query map the server sees for these parameters. */
  function QueryMap(params: seq<(string, string)>): map<string, string> {
    if |params| == 0 then map[]
    else QueryMap(params[..|params| - 1])[params[|params| - 1].0 := params[|params| - 1].1]
  }

  lemma {:induction false} QueryMapLookup(params: seq<(string, string)>, name: string)
    ensures name in QueryMap(params) <==> Lookup(params, name).Some?
    ensures name in QueryMap(params) ==> QueryMap(params)[name] == Lookup(params, name).value
  {
    if |params| > 0 {
      QueryMapLookup(params[..|params| - 1], name);
    }
  }

  /** The request URL of `fetchArticles`: a `?` only when there is a query. */
  function ArticlesUrl(base: string, params: seq<(string, string)>): string {
    var q := QueryString(params);
    base + "/articles.php" + (if q != "" then "?" + q else "")
  }

  /** `articles.php?id=` with the id URI-encoded. */
  function ByIdUrl(base: string, id: string): string {
    base + "/articles.php?id=" + UriEncode(id)
  }

  function FetchArticles(base: string, category: Option<string>, search: Option<string>): HttpCall {
    HttpCall("GET", ArticlesUrl(base, ArticleParams(category, search)))
  }

  function FetchArticleById(base: string, id: string): HttpCall {
    HttpCall("GET", ByIdUrl(base, id))
  }

  function CreateArticle(base: string): HttpCall {
    HttpCall("POST", base + "/articles.php")
  }

  function UpdateArticle(base: string): HttpCall {
    HttpCall("PUT", base + "/articles.php")
  }

  function DeleteArticle(base: string, id: string): HttpCall {
    HttpCall("DELETE", ByIdUrl(base, id))
  }

  function FetchAuthors(base: string): HttpCall {
    HttpCall("GET", base + "/authors.php")
  }

  /** What App.tsx passes to `fetchArticles`: the category unless it is
      "All", and the search text unless it is empty. */
  function AppParams(filter: CategoryFilter, search: string): seq<(string, string)> {
    ArticleParams(if filter.Only? then Some(filter.Name()) else None, if search != "" then Some(search) else None)
  }

  // ---------------------------------------------------------------------
  // Replies

  /** `response.ok`. */
  predicate IsOk(status: nat) {
    200 <= status <= 299
  }

  /** A reply, with its body read both ways the client may read it: as the
      expected value, and as an error object `{error}`. `None` means the
      body is not that JSON. */
  datatype Reply<T> = Reply(status: nat, value: Option<T>, errorBody: Option<Option<string>>)

  datatype ClientError = HttpStatus(status: nat) | ServerMessage(message: string) | BadJson {

    /** The `Error` message the caller sees. */
    function Message(): string {
      match this
      case HttpStatus(n) => "HTTP error! status: " + Decimal(n)
      case ServerMessage(m) => m
      case BadJson => "invalid JSON"
    }
  }

  /** `fetchArticles`, `fetchArticleById` and `fetchAuthors`: a non-2xx
      status throws with the status in the message. */
  function ReadValue<T>(r: Reply<T>): (out: Result<T, ClientError>)
    ensures !IsOk(r.status) ==> out == Failure(HttpStatus(r.status))
    ensures out.Success? <==> IsOk(r.status) && r.value.Some?
    ensures out.Success? ==> out.value == r.value.value
  {
    if !IsOk(r.status) then Failure(HttpStatus(r.status))
    else match r.value
      case Some(v) => Success(v)
      case None => Failure(BadJson)
  }

  /** `createArticle` and `updateArticle`: a non-2xx status throws with the
      server's `error` text, or the status when there is none. */
  function ReadValueOrError<T>(r: Reply<T>): (out: Result<T, ClientError>)
    ensures !IsOk(r.status) ==> out.Failure?
    ensures !IsOk(r.status) && r.errorBody.Some? && r.errorBody.value.Some? && r.errorBody.value.value != "" ==>
              out == Failure(ServerMessage(r.errorBody.value.value))
    ensures !IsOk(r.status) && r.errorBody.Some? && (r.errorBody.value.None? || r.errorBody.value.value == "") ==>
              out == Failure(HttpStatus(r.status))
    ensures out.Success? <==> IsOk(r.status) && r.value.Some?
    ensures out.Success? ==> out.value == r.value.value
  {
    if !IsOk(r.status) then
      match r.errorBody
      case None => Failure(BadJson)
      case Some(e) => if e.Some? && e.value != "" then Failure(ServerMessage(e.value)) else Failure(HttpStatus(r.status))
    else match r.value
      case Some(v) => Success(v)
      case None => Failure(BadJson)
  }

  /** `deleteArticle`: success does not read the body. */
  function ReadDeleted(r: Reply<()>): (out: Result<(), ClientError>)
    ensures out.Success? <==> IsOk(r.status)
    ensures !IsOk(r.status) && r.errorBody.Some? && r.errorBody.value.Some? && r.errorBody.value.value != "" ==>
              out == Failure(ServerMessage(r.errorBody.value.value))
    ensures !IsOk(r.status) && r.errorBody.Some? && (r.errorBody.value.None? || r.errorBody.value.value == "") ==>
              out == Failure(HttpStatus(r.status))
  {
    if IsOk(r.status) then Success(()) else ReadValueOrError(r)
  }

  // ---------------------------------------------------------------------
  // Properties

  /** `category` is sent exactly when it is given, non-empty and not "All";
      `search` exactly when it is non-empty; each with the given value. */
  lemma ParamPresence(category: Option<string>, search: Option<string>)
    ensures var ps := ArticleParams(category, search);
      && (Lookup(ps, "category").Some? <==> category.Some? && category.value != "" && category.value != "All")
      && (Lookup(ps, "category").Some? ==> Lookup(ps, "category") == category)
      && (Lookup(ps, "search").Some? <==> search.Some? && search.value != "")
      && (Lookup(ps, "search").Some? ==> Lookup(ps, "search") == search)
  {
    var ps := ArticleParams(category, search);
    if |ps| == 2 {
      assert ps[..1] == [("category", category.value)];
    }
  }

  /** With a base URL that has no `?`, the articles URL has one exactly when
      a parameter was added. */
  lemma QuestionMarkIffParams(base: string, params: seq<(string, string)>)
    requires '?' !in base
    ensures '?' in ArticlesUrl(base, params) <==> |params| > 0
  {
    var q := QueryString(params);
    var front := base + "/articles.php";
    assert '?' !in front by {
      assert forall i :: 0 <= i < |front| ==> front[i] == (if i < |base| then base[i] else "/articles.php"[i - |base|]);
    }
    if |params| == 0 {
      assert q == "";
      assert ArticlesUrl(base, params) == front;
    } else {
      assert q != "";
      var url := front + ("?" + q);
      assert ArticlesUrl(base, params) == url;
      assert url[|front|] == '?';
    }
  }

  /** The id reaches the server whole: it is the only parameter of the
      get-by-id and delete URLs, and decodes to the id's bytes. */
  lemma IdEncodingRoundTrip(id: string)
    ensures DecodeQuery("id=" + UriEncode(id)) == Some([(Utf8.Encode("id"), Utf8.Encode(id))])
  {
    var e := UriEncode(id);
    var q := "id=" + e;
    IdPieceSplits(e);
    DecodeIdName();
    assert DecodePair(q) == Some((Utf8.Encode("id"), Utf8.Encode(id)));
    DecodeSinglePair(q);
  }

  /** `id=` followed by encoded text is one piece with two halves. */
  lemma IdPieceSplits(e: string)
    requires NoDelimiter(e)
    ensures Split("id=" + e, '&') == ["id=" + e]
    ensures Split("id=" + e, '=') == ["id", e]
  {
    var q := "id=" + e;
    assert '&' !in q by {
      assert forall i :: 0 <= i < |q| ==> q[i] == (if i < 3 then "id="[i] else e[i - 3]);
    }
    SplitJoin([q], '&');
    var halves := ["id", e];
    assert Join(halves, '=') == q by {
      assert halves[1..] == [e];
    }
    assert '=' !in e by {
      assert forall c :: c in e ==> !IsDelimiter(c);
    }
    SplitJoin(halves, '=');
  }

  /** The name `id` travels as itself. */
  lemma DecodeIdName()
    ensures DecodeBytes("id") == Some(Utf8.Encode("id"))
  {
    assert "id"[1..] == "d" && "d"[1..] == "";
    assert Utf8.Encode("id") == [105, 100];
    assert DecodeBytes("") == Some([]);
    assert Utf8.IsAscii('d') && Utf8.IsAscii('i');
    assert DecodeBytes("d") == Prepend(100, DecodeBytes(""));
    assert DecodeBytes("id") == Prepend(105, DecodeBytes("d"));
  }

  /** Any non-2xx reply makes every call fail. */
  lemma NonOkThrows<T>(r: Reply<T>, d: Reply<()>)
    requires !IsOk(r.status) && !IsOk(d.status)
    ensures ReadValue(r).Failure? && ReadValueOrError(r).Failure? && ReadDeleted(d).Failure?
  {
  }

  /** The list filters the home page asks for are the ones the server
      applies, except that a search for "0" is sent but ignored, because the
      server treats "0" as empty. */
  lemma FiltersAgree(filter: CategoryFilter, search: string)
    ensures var q := QueryMap(AppParams(filter, search));
      && (ArticlesApi.CategoryFilterOn(q) <==> filter.Only?)
      && (ArticlesApi.CategoryFilterOn(q) ==> q["category"] == filter.Name())
      && ("search" in q <==> search != "")
      && (ArticlesApi.SearchOn(q) <==> search != "" && search != "0")
      && (ArticlesApi.SearchOn(q) ==> q["search"] == search)
  {
    var category := if filter.Only? then Some(filter.Name()) else None;
    var s := if search != "" then Some(search) else None;
    var ps := ArticleParams(category, s);
    assert AppParams(filter, search) == ps;
    var q := QueryMap(ps);
    if filter.Only? {
      CategoryNameRoundTrip(filter.category);
    }
    ParamPresence(category, s);
    QueryMapLookup(ps, "category");
    QueryMapLookup(ps, "search");
    assert "category" in q <==> filter.Only?;
    assert "search" in q <==> search != "";
  }
}

=== FILE: app_shell.dfy ===
/** The single-page shell of App.tsx: hash routing, which view is shown,
    the top story and feed of the home page, and the state changes when
    articles load or a new one is published. */
module AppShell {

  import opened Wrappers
  import opened Text
  import opened Types

  // ---------------------------------------------------------------------
  // Routing

  /** `window.location.hash || '#/'`. */
  function EffectiveHash(hash: string): (r: string)
    ensures r != ""
    ensures hash != "" ==> r == hash
    ensures hash == "" ==> r == "#/"
  {
    if hash == "" then "#/" else hash
  }

  const ArticlePrefix: string := "#/article/"
  const ArticleSeparator: string := "/article/"
  const AdminHash: string := "#/admin"

  /** `currentHash.startsWith('#/article/')`. */
  predicate IsArticleRoute(hash: string) {
    IsPrefix(ArticlePrefix, hash)
  }

  /** `currentHash.split('/article/')[1]` on an article route. The first
      separator is the one inside the prefix, so the piece is what follows
      the prefix up to the next separator. */
  function ArticleId(hash: string): (id: Option<string>)
    ensures id.Some? <==> IsArticleRoute(hash)
    ensures id.Some? ==> IsPrefix(id.value, hash[|ArticlePrefix|..])
  {
    if !IsArticleRoute(hash) then None
    else
      var rest := hash[|ArticlePrefix|..];
      match IndexOf(rest, ArticleSeparator)
      case Some(i) => Some(rest[..i])
      case None => Some(rest)
  }

  /** An article link built from an id without the separator in it routes
      back to that id. */
  lemma ArticleIdRoundTrip(x: string)
    requires !Contains(x, ArticleSeparator)
    ensures IsArticleRoute(ArticlePrefix + x)
    ensures ArticleId(ArticlePrefix + x) == Some(x)
  {
    var h := ArticlePrefix + x;
    assert h[..|ArticlePrefix|] == ArticlePrefix;
    assert h[|ArticlePrefix|..] == x;
  }

  // ---------------------------------------------------------------------
  // The home page

  /** `articles.find(a => a.id === id)` as a position. */
  function FindById(articles: seq<Article>, id: string): (r: Option<nat>)
    ensures r.Some? ==> r.value < |articles| && articles[r.value].id == id
    ensures r.Some? ==> forall j :: 0 <= j < r.value ==> articles[j].id != id
    ensures r.None? <==> forall j :: 0 <= j < |articles| ==> articles[j].id != id
  {
    if |articles| == 0 then None
    else if articles[0].id == id then Some(0)
    else match FindById(articles[1..], id)
      case Some(i) => Some(i + 1)
      case None => None
  }

  /** `articles.find(a => a.isTopStory)` as a position. */
  function FirstTopStory(articles: seq<Article>): (r: Option<nat>)
    ensures r.Some? ==> r.value < |articles| && articles[r.value].isTopStory == Some(true)
    ensures r.Some? ==> forall j :: 0 <= j < r.value ==> articles[j].isTopStory != Some(true)
    ensures r.None? <==> forall j :: 0 <= j < |articles| ==> articles[j].isTopStory != Some(true)
  {
    if |articles| == 0 then None
    else if articles[0].isTopStory == Some(true) then Some(0)
    else match FirstTopStory(articles[1..])
      case Some(i) => Some(i + 1)
      case None => None
  }

  /** `find(a => a.isTopStory) || articles[0]`; nothing for an empty list. */
  function TopStory(articles: seq<Article>): (top: Option<Article>)
    ensures top.None? <==> articles == []
    ensures top.Some? ==> top.value in articles
    ensures (exists j :: 0 <= j < |articles| && articles[j].isTopStory == Some(true)) ==>
              top.Some? && top.value.isTopStory == Some(true)
    ensures articles != [] && (forall j :: 0 <= j < |articles| ==> articles[j].isTopStory != Some(true)) ==>
              top == Some(articles[0])
    ensures (exists j :: 0 <= j < |articles| && articles[j].isTopStory == Some(true)) ==>
              exists i :: 0 <= i < |articles| && top == Some(articles[i]) && articles[i].isTopStory == Some(true)
                          && forall j :: 0 <= j < i ==> articles[j].isTopStory != Some(true)
  {
    match FirstTopStory(articles)
    case Some(i) => Some(articles[i])
    case None => if |articles| == 0 then None else Some(articles[0])
  }

  /** `articles.filter(a => a.id !== id)`. */
  function WithoutId(articles: seq<Article>, id: string): (r: seq<Article>)
    ensures |r| <= |articles|
    ensures forall a :: a in r <==> a in articles && a.id != id
    ensures |articles| == 1 ==> r == (if articles[0].id == id then [] else articles)
  {
    if |articles| == 0 then []
    else if articles[0].id == id then WithoutId(articles[1..], id)
    else [articles[0]] + WithoutId(articles[1..], id)
  }

  /** Filtering distributes over concatenation, so it keeps the order of
      what it keeps. */
  lemma {:induction false} WithoutIdAppend(a: seq<Article>, b: seq<Article>, id: string)
    ensures WithoutId(a + b, id) == WithoutId(a, id) + WithoutId(b, id)
    decreases |a|
  {
    if |a| > 0 {
      assert (a + b)[0] == a[0] && (a + b)[1..] == a[1..] + b;
      WithoutIdAppend(a[1..], b, id);
    } else {
      assert a + b == b;
    }
  }

  /** The list minus the top story (and anything sharing its id); with no
      top story, everything. */
  function Feed(articles: seq<Article>): (feed: seq<Article>)
    ensures forall a :: a in feed ==> a in articles
    ensures TopStory(articles).Some? ==> TopStory(articles).value !in feed
    ensures TopStory(articles).Some? ==> forall a :: a in feed <==> a in articles && a.id != TopStory(articles).value.id
    ensures TopStory(articles).None? ==> feed == articles
  {
    match TopStory(articles)
    case Some(top) => WithoutId(articles, top.id)
    case None => articles
  }

  // ---------------------------------------------------------------------
  // Views

  datatype View =
    | Loading
    | LoadError(message: string)
    | LoginPage
    | AdminPage
    | ArticlePage(article: Article)
    | NotFound
    | NoStories
    | Home(hero: Option<Article>, heading: string, grid: seq<Article>)

  datatype AppState = AppState(
    hash: string, articles: seq<Article>, loading: bool, error: Option<string>,
    search: string, category: CategoryFilter, authenticated: bool)

  /** The home page for the current list and filters. */
  function HomeView(s: AppState): View {
    if s.articles == [] then NoStories
    else
      var unfiltered := s.search == "" && s.category == All;
      Home(
        if unfiltered then TopStory(s.articles) else None,
        if s.search != "" then "Search Results" else "Latest Feed",
        if unfiltered then Feed(s.articles) else s.articles)
  }

  /** The `ComponentToRender` chain. */
  function ViewOf(s: AppState): (v: View)
    ensures v.Loading? <==> s.loading && s.articles == []
    ensures v.LoadError? <==> !(s.loading && s.articles == []) && s.error.Some?
    ensures v.LoginPage? || v.AdminPage? <==> !v.Loading? && !v.LoadError? && s.hash == AdminHash
    ensures v.AdminPage? ==> s.authenticated
    ensures v.ArticlePage? ==> v.article in s.articles && ArticleId(s.hash) == Some(v.article.id)
    ensures v.NoStories? ==> s.articles == []
    ensures v.Home? ==> forall a :: a in v.grid ==> a in s.articles
  {
    if s.loading && s.articles == [] then Loading
    else if s.error.Some? then LoadError(s.error.value)
    else if s.hash == AdminHash then (if s.authenticated then AdminPage else LoginPage)
    else if ArticleId(s.hash).Some? && ArticleId(s.hash).value != "" then
      match FindById(s.articles, ArticleId(s.hash).value)
      case Some(i) => ArticlePage(s.articles[i])
      case None => NotFound
    else HomeView(s)
  }

  /** The state on mount. */
  function Initial(hash: string): AppState {
    AppState(EffectiveHash(hash), [], true, None, "", All, false)
  }

  const LoadFailure: string := "Failed to load articles. Please try again later."

  datatype AppEvent =
    | HashChanged(hash: string)
    | Searched(query: string)
    | CategoryPicked(filter: CategoryFilter)
    | Loaded(articles: seq<Article>)
    | LoadFailed
    | Retried
    | ArticleAdded(article: Article)
    | SessionChecked(authenticated: bool)
    | LoggedIn
    | LoggedOut

  /** One event. A change of search or category, and the retry button,
      start a reload (`loadArticles` sets loading and clears the error);
      setting either filter to its current value changes nothing. */
  function Step(s: AppState, e: AppEvent): (r: AppState)
    ensures !e.Loaded? && !e.ArticleAdded? ==> r.articles == s.articles
    ensures e.Loaded? ==> r.articles == e.articles && !r.loading
    ensures r.hash != s.hash ==> e.HashChanged? || e.ArticleAdded? || e.LoggedOut?
    ensures s.hash != "" ==> r.hash != ""
    ensures r.authenticated != s.authenticated ==> e.SessionChecked? || e.LoggedIn? || e.LoggedOut?
    ensures r.search == (if e.Searched? then e.query else s.search)
    ensures r.category == (if e.CategoryPicked? then e.filter else s.category)
  {
    match e
    case HashChanged(h) => s.(hash := EffectiveHash(h))
    case Searched(q) => if q == s.search then s else s.(search := q, loading := true, error := None)
    case CategoryPicked(c) => if c == s.category then s else s.(category := c, loading := true, error := None)
    case Retried => s.(loading := true, error := None)
    case Loaded(xs) => s.(articles := xs, loading := false)
    case LoadFailed => s.(error := Some(LoadFailure), loading := false)
    case ArticleAdded(a) => s.(articles := [a] + s.articles, hash := "#/")
    case SessionChecked(b) => s.(authenticated := b)
    case LoggedIn => s.(authenticated := true)
    case LoggedOut => s.(authenticated := false, hash := "#/")
  }

  // ---------------------------------------------------------------------
  // Properties

  /** Loading with nothing to show comes first, then a load error, then the
      routes. */
  lemma ViewPrecedence(s: AppState)
    ensures s.loading && s.articles == [] ==> ViewOf(s) == Loading
    ensures !(s.loading && s.articles == []) && s.error.Some? ==> ViewOf(s) == LoadError(s.error.value)
    ensures ViewOf(s).Loading? ==> s.loading && s.articles == []
    ensures ViewOf(s).LoadError? ==> s.error.Some?
  {
  }

  /** `#/admin` shows the login page to a guest and the editor to an admin. */
  lemma AdminGate(s: AppState)
    requires !(s.loading && s.articles == []) && s.error.None? && s.hash == AdminHash
    ensures ViewOf(s) == LoginPage <==> !s.authenticated
    ensures ViewOf(s) == AdminPage <==> s.authenticated
  {
  }

  /** An article route shows the first loaded article with that id, or
      "not found" when none has it. */
  lemma ArticleRoute(s: AppState, x: string)
    requires !(s.loading && s.articles == []) && s.error.None?
    requires x != "" && !Contains(x, ArticleSeparator) && s.hash == ArticlePrefix + x
    ensures (forall j :: 0 <= j < |s.articles| ==> s.articles[j].id != x) ==> ViewOf(s) == NotFound
    ensures ViewOf(s).ArticlePage? ==> ViewOf(s).article.id == x && ViewOf(s).article in s.articles
    ensures (exists j :: 0 <= j < |s.articles| && s.articles[j].id == x) ==> ViewOf(s).ArticlePage?
  {
    ArticleIdRoundTrip(x);
    assert |s.hash| > |AdminHash|;
  }

  /** The hero shows only without a search and with every category; the grid
      then holds the feed, and otherwise the whole list. */
  lemma HomeLayout(s: AppState)
    requires s.articles != []
    ensures var v := HomeView(s);
      && v.Home?
      && (v.hero.Some? <==> s.search == "" && s.category == All)
      && (v.hero.Some? ==> v.hero == TopStory(s.articles) && v.grid == Feed(s.articles))
      && (s.search != "" || s.category != All ==> v.grid == s.articles)
  {
  }

  /** Publishing puts the new article first and goes home; when it is a top
      story it becomes the home page's top story. */
  lemma ArticleAddedFirst(s: AppState, a: Article)
    ensures Step(s, ArticleAdded(a)).articles == [a] + s.articles
    ensures Step(s, ArticleAdded(a)).hash == "#/"
    ensures a.isTopStory == Some(true) ==> TopStory(Step(s, ArticleAdded(a)).articles) == Some(a)
    ensures a.isTopStory == Some(true) ==> Feed(Step(s, ArticleAdded(a)).articles) == WithoutId(s.articles, a.id)
  {
    var xs := [a] + s.articles;
    assert xs[0] == a && xs[1..] == s.articles;
  }

  /** A failed load keeps the articles it had but shows the error page
      instead of them, whatever the route. */
  lemma LoadFailedShowsError(s: AppState)
    ensures Step(s, LoadFailed).articles == s.articles
    ensures ViewOf(Step(s, LoadFailed)) == LoadError(LoadFailure)
  {
  }
}

=== FILE: article_store.dfy ===
/** The tables behind the articles endpoint, the tag upsert shared by
    create and update (`insertTags`), and the shaping of a selected row into
    the JSON article (`formatArticle`), as in api/articles.php.

    The database is a value. Tag-name equality is the column's collation,
    passed in as `fold`: two names are the same tag exactly when they fold
    to the same key. */
module ArticleStore {

  import opened Wrappers
  import opened Text
  import Utf8

  /** A DATETIME value, abstracted to an integer that orders like the
      instants it stands for. */
  type Timestamp = int

  /** One row of `articles`, without its key. Every column the update
      endpoint can write may hold NULL (`None`). */
  datatype Row = Row(
    title: Option<string>,
    summary: Option<string>,
    content: Option<string>,
    category: Option<string>,
    authorId: Option<string>,
    publishedAt: Option<Timestamp>,
    imageUrl: Option<string>,
    readTimeMinutes: Option<int>,
    isTopStory: Option<bool>,
    aiSummary: Option<string>)

  /** One row of `authors`, without its key. */
  datatype AuthorRow = AuthorRow(name: string, avatarUrl: string, role: string)

  /** One row of `tags`: the name as first inserted and its generated id. */
  datatype TagRow = TagRow(name: string, id: nat)

  /** One row of `article_tags`. */
  datatype Link = Link(articleId: string, tagId: nat)

  /** The four tables. `tags` is keyed by the folded name (the unique
      index on `tags.name`); `nextTagId` is the auto-increment counter. */
  datatype Db = Db(
    articles: map<string, Row>,
    authors: map<string, AuthorRow>,
    tags: map<string, TagRow>,
    links: set<Link>,
    nextTagId: nat)

  /** A name `insertTags` keeps: trimmed and not empty in PHP's sense. */
  predicate IsTagName(s: string) {
    IsTrimmed(s, IsPhpSpace) && !PhpEmpty(s)
  }

  /** What every reachable database satisfies: each tag row sits under its
      own folded name, tag ids are distinct and below the counter, and every
      stored tag name is one `insertTags` would keep. */
  ghost predicate Valid(db: Db, fold: string -> string) {
    && (forall k :: k in db.tags ==> fold(db.tags[k].name) == k)
    && (forall k :: k in db.tags ==> db.tags[k].id < db.nextTagId)
    && (forall k :: k in db.tags ==> IsTagName(db.tags[k].name))
    && (forall k1, k2 :: k1 in db.tags && k2 in db.tags && db.tags[k1].id == db.tags[k2].id ==> k1 == k2)
  }

  /** The empty database satisfies the invariant. */
  lemma EmptyValid(fold: string -> string, authors: map<string, AuthorRow>)
    ensures Valid(Db(map[], authors, map[], {}, 1), fold)
  {
  }

  // ---------------------------------------------------------------------
  // insertTags

  /** The name one raw tag is stored under, or `None` when the loop skips it
      (PHP `trim`, then `empty`). */
  function KeptName(raw: string): (r: Option<string>)
    ensures r.Some? ==> IsTagName(r.value)
    ensures r.None? <==> PhpEmpty(Trim(raw, IsPhpSpace))
  {
    var name := Trim(raw, IsPhpSpace);
    if PhpEmpty(name) then None else Some(name)
  }

  /** The folded keys of all names the loop keeps. */
  function KeptKeys(raws: seq<string>, fold: string -> string): set<string>
    decreases |raws|
  {
    if |raws| == 0 then {}
    else
      var head := match KeptName(raws[0]) case Some(name) => {fold(name)} case None => {};
      head + KeptKeys(raws[1..], fold)
  }

  /** Every kept name's key is among the kept keys. */
  lemma {:induction false} KeptKeysHas(raws: seq<string>, fold: string -> string, i: nat)
    requires i < |raws| && KeptName(raws[i]).Some?
    ensures fold(KeptName(raws[i]).value) in KeptKeys(raws, fold)
    decreases i
  {
    if i > 0 {
      assert raws[1..][i - 1] == raws[i];
      KeptKeysHas(raws[1..], fold, i - 1);
    }
  }

  /** One turn of the `insertTags` loop: `INSERT IGNORE` the tag, look up its
      id by name, `INSERT IGNORE` the link. */
  function UpsertTag(db: Db, fold: string -> string, articleId: string, raw: string): (r: Db)
    ensures r.articles == db.articles && r.authors == db.authors
    ensures KeptName(raw).None? ==> r == db
    ensures KeptName(raw).Some? ==>
              var key := fold(KeptName(raw).value);
              && key in r.tags
              && r.tags.Keys == db.tags.Keys + {key}
              && (forall k :: k in db.tags ==> r.tags[k] == db.tags[k])
              && (key !in db.tags ==> r.tags[key] == TagRow(KeptName(raw).value, db.nextTagId))
              && r.links == db.links + {Link(articleId, r.tags[key].id)}
  {
    match KeptName(raw)
    case None => db
    case Some(name) =>
      var key := fold(name);
      var withTag :=
        if key in db.tags then db
        else db.(tags := db.tags[key := TagRow(name, db.nextTagId)], nextTagId := db.nextTagId + 1);
      withTag.(links := withTag.links + {Link(articleId, withTag.tags[key].id)})
  }

  /** The links that tie `articleId` to the tags named in `raws`, resolved in
      the tag table of `db`. */
  function LinksFor(db: Db, fold: string -> string, articleId: string, raws: seq<string>): (r: set<Link>)
    ensures forall l :: l in r ==> l.articleId == articleId
    decreases |raws|
  {
    if |raws| == 0 then {}
    else
      var head := match KeptName(raws[0])
        case Some(name) => if fold(name) in db.tags then {Link(articleId, db.tags[fold(name)].id)} else {}
        case None => {};
      head + LinksFor(db, fold, articleId, raws[1..])
  }

  /** Every kept name whose tag exists contributes its link. */
  lemma {:induction false} LinksForHas(db: Db, fold: string -> string, articleId: string, raws: seq<string>, i: nat)
    requires i < |raws| && KeptName(raws[i]).Some? && fold(KeptName(raws[i]).value) in db.tags
    ensures Link(articleId, db.tags[fold(KeptName(raws[i]).value)].id) in LinksFor(db, fold, articleId, raws)
    decreases i
  {
    if i > 0 {
      assert raws[1..][i - 1] == raws[i];
      LinksForHas(db, fold, articleId, raws[1..], i - 1);
    }
  }

  /** Links resolved in a tag table that only grew are the same links. */
  lemma {:induction false} LinksForStable(db: Db, db': Db, fold: string -> string, articleId: string, raws: seq<string>)
    requires forall k :: k in db.tags ==> k in db'.tags && db'.tags[k] == db.tags[k]
    requires KeptKeys(raws, fold) <= db.tags.Keys
    ensures LinksFor(db', fold, articleId, raws) == LinksFor(db, fold, articleId, raws)
    decreases |raws|
  {
    if |raws| > 0 {
      LinksForStable(db, db', fold, articleId, raws[1..]);
    }
  }

  /** One turn of the loop keeps the invariant. */
  lemma UpsertTagValid(db: Db, fold: string -> string, articleId: string, raw: string)
    ensures Valid(db, fold) ==> Valid(UpsertTag(db, fold, articleId, raw), fold)
  {
    if Valid(db, fold) && KeptName(raw).Some? {
      var name := KeptName(raw).value;
      var key := fold(name);
      var r := UpsertTag(db, fold, articleId, raw);
      if key in db.tags {
        assert r.tags == db.tags;
      } else {
        var added := TagRow(name, db.nextTagId);
        assert r.tags == db.tags[key := added] && r.nextTagId == db.nextTagId + 1;
        forall k1, k2 | k1 in r.tags && k2 in r.tags && r.tags[k1].id == r.tags[k2].id
          ensures k1 == k2
        {
          if k1 != key && k2 != key {
            assert r.tags[k1] == db.tags[k1] && r.tags[k2] == db.tags[k2];
          }
        }
      }
    }
  }

  /** `insertTags($pdo, $articleId, $tags)`. */
  function InsertTags(db: Db, fold: string -> string, articleId: string, raws: seq<string>): (r: Db)
    ensures r.articles == db.articles && r.authors == db.authors
    ensures forall k :: k in db.tags ==> k in r.tags && r.tags[k] == db.tags[k]
    ensures r.tags.Keys == db.tags.Keys + KeptKeys(raws, fold)
    ensures r.links == db.links + LinksFor(r, fold, articleId, raws)
    ensures Valid(db, fold) ==> Valid(r, fold)
    decreases |raws|
  {
    if |raws| == 0 then db
    else
      var step := UpsertTag(db, fold, articleId, raws[0]);
      var r := InsertTags(step, fold, articleId, raws[1..]);
      InsertTagsStep(db, fold, articleId, raws, step, r);
      UpsertTagValid(db, fold, articleId, raws[0]);
      r
  }

  /** The bookkeeping behind one unfolding of `InsertTags`: the first raw tag's
      contribution plus the rest's is the whole list's. */
  lemma InsertTagsStep(db: Db, fold: string -> string, articleId: string, raws: seq<string>, step: Db, r: Db)
    requires |raws| > 0
    requires step == UpsertTag(db, fold, articleId, raws[0])
    requires forall k :: k in step.tags ==> k in r.tags && r.tags[k] == step.tags[k]
    requires r.tags.Keys == step.tags.Keys + KeptKeys(raws[1..], fold)
    requires r.links == step.links + LinksFor(r, fold, articleId, raws[1..])
    ensures forall k :: k in db.tags ==> k in r.tags && r.tags[k] == db.tags[k]
    ensures r.tags.Keys == db.tags.Keys + KeptKeys(raws, fold)
    ensures r.links == db.links + LinksFor(r, fold, articleId, raws)
  {
    var rest := raws[1..];
    match KeptName(raws[0])
    case None =>
      assert step == db;
      assert KeptKeys(raws, fold) == KeptKeys(rest, fold);
      assert LinksFor(r, fold, articleId, raws) == LinksFor(r, fold, articleId, rest);
    case Some(name) =>
      var key := fold(name);
      assert key in step.tags;
      assert step.tags.Keys == db.tags.Keys + {key};
      assert forall k :: k in db.tags ==> k in step.tags && step.tags[k] == db.tags[k];
      assert step.links == db.links + {Link(articleId, step.tags[key].id)};
      assert KeptKeys(raws, fold) == {key} + KeptKeys(rest, fold);
      assert LinksFor(r, fold, articleId, raws) == {Link(articleId, r.tags[key].id)} + LinksFor(r, fold, articleId, rest);
  }

  /** When every kept name of `raws` already has its tag and its link to
      `articleId`, `insertTags` changes nothing. */
  lemma {:induction false} InsertTagsNoOp(db: Db, fold: string -> string, articleId: string, raws: seq<string>)
    requires KeptKeys(raws, fold) <= db.tags.Keys
    requires LinksFor(db, fold, articleId, raws) <= db.links
    ensures InsertTags(db, fold, articleId, raws) == db
    decreases |raws|
  {
    if |raws| > 0 {
      assert UpsertTag(db, fold, articleId, raws[0]) == db;
      InsertTagsNoOp(db, fold, articleId, raws[1..]);
    }
  }

  /** Running `insertTags` twice with the same list is running it once. */
  lemma InsertTagsIdempotent(db: Db, fold: string -> string, articleId: string, raws: seq<string>)
    ensures var once := InsertTags(db, fold, articleId, raws);
            InsertTags(once, fold, articleId, raws) == once
  {
    var once := InsertTags(db, fold, articleId, raws);
    LinksForStable(once, once, fold, articleId, raws);
    InsertTagsNoOp(once, fold, articleId, raws);
  }

  /** After `insertTags`, every name it kept is a tag and is linked to the
      article exactly through that tag's id; links of other articles are
      untouched, and nothing is ever unlinked. */
  lemma InsertTagsLinksKeptNames(db: Db, fold: string -> string, articleId: string, raws: seq<string>, i: nat)
    requires i < |raws| && KeptName(raws[i]).Some?
    ensures var r := InsertTags(db, fold, articleId, raws);
            var key := fold(KeptName(raws[i]).value);
            key in r.tags && Link(articleId, r.tags[key].id) in r.links
  {
    var r := InsertTags(db, fold, articleId, raws);
    KeptKeysHas(raws, fold, i);
    LinksForHas(r, fold, articleId, raws, i);
  }

  /** `insertTags` adds links of `articleId` only. */
  lemma InsertTagsOnlyOwnLinks(db: Db, fold: string -> string, articleId: string, raws: seq<string>)
    ensures var r := InsertTags(db, fold, articleId, raws);
            forall l :: l in r.links ==> l in db.links || l.articleId == articleId
  {
  }

  // ---------------------------------------------------------------------
  // The read side: the article SELECT and formatArticle

  /** The keys of the tags linked to `articleId`: the rows the two LEFT JOINs
      through `article_tags` and `tags` produce for that article. */
  function LinkedKeys(db: Db, articleId: string): set<string>
  {
    set k | k in db.tags && Link(articleId, db.tags[k].id) in db.links
  }

  /** `GROUP_CONCAT(t.name)`: NULL over no rows, else the names joined by
      commas. */
  function GroupConcat(names: seq<string>): (r: Option<string>)
    ensures r.None? <==> |names| == 0
  {
    if |names| == 0 then None else Some(Join(names, ','))
  }

  /** The names of the tag rows `keys` lists, in that order. */
  function NamesOf(db: Db, keys: seq<string>): (names: seq<string>)
    requires forall i :: 0 <= i < |keys| ==> keys[i] in db.tags
    ensures |names| == |keys|
    ensures forall i :: 0 <= i < |keys| ==> names[i] == db.tags[keys[i]].name
  {
    seq(|keys|, i requires 0 <= i < |keys| => db.tags[keys[i]].name)
  }

  /** One result row of the article SELECT: `a.*`, the author columns of the
      LEFT JOIN on `authors`, and the concatenated tag names. */
  datatype Selected = Selected(id: string, row: Row, author: Option<AuthorRow>, tagList: Option<string>)

  /** The row the SELECT yields for `id` when the grouped tag rows come in
      the order `keys`. */
  function SelectRow(db: Db, id: string, keys: seq<string>): Selected
    requires id in db.articles
    requires forall i :: 0 <= i < |keys| ==> keys[i] in db.tags
  {
    var row := db.articles[id];
    var author := if row.authorId.Some? && row.authorId.value in db.authors then Some(db.authors[row.authorId.value]) else None;
    Selected(id, row, author, GroupConcat(NamesOf(db, keys)))
  }

  /** The author object nested in an article; NULL columns stay `None`. */
  datatype AuthorJson = AuthorJson(id: Option<string>, name: Option<string>, avatarUrl: Option<string>, role: Option<string>)

  /** The article object the endpoint echoes. */
  datatype ArticleJson = ArticleJson(
    id: string,
    title: Option<string>,
    summary: Option<string>,
    content: Option<string>,
    category: Option<string>,
    author: AuthorJson,
    publishedAt: Option<Timestamp>,
    imageUrl: Option<string>,
    tags: seq<string>,
    readTimeMinutes: int,
    isTopStory: bool,
    aiSummary: Option<string>)

  /** PHP truthiness of a nullable string column. */
  predicate Truthy(v: Option<string>) {
    v.Some? && !PhpEmpty(v.value)
  }

  /** `formatArticle($row)`. The `(int)` and `(bool)` casts turn NULL into 0
      and false. */
  function FormatArticle(s: Selected): (a: ArticleJson)
    ensures !Truthy(s.tagList) ==> a.tags == []
    ensures Truthy(s.tagList) ==> |a.tags| >= 1 && Join(a.tags, ',') == s.tagList.value
    ensures forall i :: 0 <= i < |a.tags| ==> ',' !in a.tags[i]
    ensures s.row.readTimeMinutes.None? ==> a.readTimeMinutes == 0
    ensures a.isTopStory <==> s.row.isTopStory == Some(true)
    ensures s.row.readTimeMinutes.Some? ==> a.readTimeMinutes == s.row.readTimeMinutes.value
    ensures a.id == s.id && a.title == s.row.title && a.summary == s.row.summary && a.content == s.row.content
    ensures a.category == s.row.category && a.publishedAt == s.row.publishedAt
    ensures a.imageUrl == s.row.imageUrl && a.aiSummary == s.row.aiSummary
    ensures a.author.id == s.row.authorId
    ensures s.author.Some? ==> a.author.name == Some(s.author.value.name) && a.author.avatarUrl == Some(s.author.value.avatarUrl)
                               && a.author.role == Some(s.author.value.role)
    ensures s.author.None? ==> a.author.name.None? && a.author.avatarUrl.None? && a.author.role.None?
  {
    var author := match s.author
      case Some(au) => AuthorJson(s.row.authorId, Some(au.name), Some(au.avatarUrl), Some(au.role))
      case None => AuthorJson(s.row.authorId, None, None, None);
    ArticleJson(
      s.id, s.row.title, s.row.summary, s.row.content, s.row.category, author,
      s.row.publishedAt, s.row.imageUrl,
      if Truthy(s.tagList) then Split(s.tagList.value, ',') else [],
      s.row.readTimeMinutes.GetOr(0),
      s.row.isTopStory.GetOr(false),
      s.row.aiSummary)
  }

  /** Splitting the comma-joined names gives the stored list back whenever no
      name holds a comma; an untagged article gets `[]`. */
  lemma FormatTagsRoundTrip(s: Selected, names: seq<string>)
    requires s.tagList == GroupConcat(names)
    requires forall i :: 0 <= i < |names| ==> ',' !in names[i] && IsTagName(names[i])
    ensures FormatArticle(s).tags == names
  {
    if |names| == 1 {
      SplitJoin(names, ',');
    } else if |names| > 1 {
      assert ',' in Join(names, ',');
      SplitJoin(names, ',');
    }
  }

  /** A comma inside a tag name does not survive the round trip: the one
      tag "a,b" comes back as the two tags "a" and "b". */
  lemma CommaInTagNameSplits(s: Selected)
    requires s.tagList == GroupConcat(["a,b"])
    ensures FormatArticle(s).tags == ["a", "b"]
  {
    SplitJoin(["a", "b"], ',');
    assert Join(["a", "b"], ',') == "a,b";
  }

  /** Lists every element of a finite set once, in some order (the order
      in which the database happens to return rows). */
  method Enumerate<T>(s: set<T>) returns (xs: seq<T>)
    ensures forall x :: x in s <==> x in xs
    ensures forall i, j :: 0 <= i < j < |xs| ==> xs[i] != xs[j]
  {
    xs := [];
    var rest := s;
    while rest != {}
      invariant forall x :: x in s <==> x in xs || x in rest
      invariant forall x :: x in rest ==> x !in xs
      invariant forall i, j :: 0 <= i < j < |xs| ==> xs[i] != xs[j]
      decreases rest
    {
      var x :| x in rest;
      xs := xs + [x];
      rest := rest - {x};
    }
  }

  /** `xs` lists every element of `s` exactly once. */
  ghost predicate IsEnumeration<T>(xs: seq<T>, s: set<T>) {
    && (forall i :: 0 <= i < |xs| ==> xs[i] in s)
    && (forall x :: x in s ==> x in xs)
    && (forall i, j :: 0 <= i < j < |xs| ==> xs[i] != xs[j])
  }

  /** `a` is what `formatArticle` makes of article `id` for some order of its
      tag rows. */
  ghost predicate IsRendering(db: Db, id: string, a: ArticleJson) {
    id in db.articles &&
    exists keys: seq<string> :: IsEnumeration(keys, LinkedKeys(db, id)) && a == FormatArticle(SelectRow(db, id, keys))
  }

  /** Selects and formats article `id`. */
  method Render(db: Db, id: string) returns (a: ArticleJson)
    requires id in db.articles
    ensures IsRendering(db, id, a)
    ensures a.id == id
    ensures a.category == db.articles[id].category && a.title == db.articles[id].title
    ensures a.summary == db.articles[id].summary && a.publishedAt == db.articles[id].publishedAt
  {
    var keys := Enumerate(LinkedKeys(db, id));
    assert IsEnumeration(keys, LinkedKeys(db, id));
    a := FormatArticle(SelectRow(db, id, keys));
  }

  /** Under the invariant, and when no linked name holds a comma, the tags of
      a rendering are the linked tag names, each exactly once. */
  lemma RenderingTags(db: Db, fold: string -> string, id: string, a: ArticleJson)
    requires Valid(db, fold)
    requires IsRendering(db, id, a)
    requires forall k :: k in LinkedKeys(db, id) ==> ',' !in db.tags[k].name
    ensures forall t :: t in a.tags <==> t in LinkedNames(db, id)
    ensures forall i, j :: 0 <= i < j < |a.tags| ==> a.tags[i] != a.tags[j]
  {
    var keys: seq<string> :| IsEnumeration(keys, LinkedKeys(db, id)) && a == FormatArticle(SelectRow(db, id, keys));
    var names := NamesOf(db, keys);
    FormatTagsRoundTrip(SelectRow(db, id, keys), names);
    assert a.tags == names;
    forall i, j | 0 <= i < j < |names| ensures names[i] != names[j] {
      assert fold(names[i]) == keys[i] && fold(names[j]) == keys[j];
    }
    forall t | t in LinkedNames(db, id) ensures t in a.tags {
      var k :| k in LinkedKeys(db, id) && db.tags[k].name == t;
      var i :| 0 <= i < |keys| && keys[i] == k;
      assert names[i] == t;
    }
  }

  /** The names of the tags linked to `articleId`. */
  function LinkedNames(db: Db, articleId: string): set<string>
  {
    set k | k in LinkedKeys(db, articleId) :: db.tags[k].name
  }
}

=== FILE: articles_api.dfy ===
/** The articles endpoint of api/articles.php: list and get (GET), create
    (POST), partial update (PUT) and delete (DELETE), each a transition from
    a request and a database to a response and a database.

    Create and update run in one transaction: a write either commits as a
    whole (`Committed`) or the database is left as it was (`Rejected`). */
module ArticlesApi {

  import opened Wrappers
  import opened Text
  import Utf8
  import opened ArticleStore

  /** One key of the decoded JSON body: absent, present with `null`, or
      present with a value. PHP's `??` treats `null` like absence;
      `array_key_exists` does not. */
  datatype Field<T> = Absent | Null | Given(value: T) {

    /** `$data[k] ?? default`. */
    function OrDefault(default: T): T {
      if Given? then value else default
    }

    /** What a present key writes into a nullable column. */
    function AsColumn(): Option<T> {
      if Given? then Some(value) else None
    }
  }

  /** PHP `empty($data[k])` for a key holding a string. */
  predicate EmptyField(f: Field<string>) {
    !f.Given? || PhpEmpty(f.value)
  }

  /** The decoded JSON body of a POST or PUT. Keys use the wire names
      (`author_id` in snake case, the rest in camel case); `otherKeys` are
      keys the endpoint never reads. */
  datatype ArticleBody = ArticleBody(
    id: Field<string>,
    title: Field<string>,
    summary: Field<string>,
    content: Field<string>,
    category: Field<string>,
    authorId: Field<string>,
    publishedAt: Field<Timestamp>,
    imageUrl: Field<string>,
    readTimeMinutes: Field<int>,
    isTopStory: Field<bool>,
    aiSummary: Field<string>,
    tags: Field<seq<string>>,
    otherKeys: set<string>)

  /** `!$data` for a body that decoded: PHP's empty array is falsy. */
  predicate IsEmptyObject(b: ArticleBody) {
    && b.id.Absent? && b.title.Absent? && b.summary.Absent? && b.content.Absent?
    && b.category.Absent? && b.authorId.Absent? && b.publishedAt.Absent? && b.imageUrl.Absent?
    && b.readTimeMinutes.Absent? && b.isTopStory.Absent? && b.aiSummary.Absent? && b.tags.Absent?
    && b.otherKeys == {}
  }

  /** What the endpoint echoes. `DatabaseError` is an exception caught at
      the top (its message comes from the driver). */
  datatype Payload =
    | One(article: ArticleJson)
    | Many(articles: seq<ArticleJson>)
    | Deleted
    | Error(message: string)
    | DatabaseError

  datatype Response = Response(status: nat, payload: Payload)

  /** A write transaction: turned away or rolled back, leaving the database
      as it was, or committed with the article id to read back. */
  datatype Tx = Rejected(response: Response) | Committed(db: Db, id: string)

  // ---------------------------------------------------------------------
  // POST

  /** The required keys in the order the validation loop checks them. */
  function Required(b: ArticleBody): seq<(string, Field<string>)>
  {
    [("title", b.title), ("summary", b.summary), ("content", b.content),
     ("category", b.category), ("author_id", b.authorId)]
  }

  /** The `foreach` over the required keys: the position of the first empty
      one, if any. */
  function FirstEmpty(fields: seq<(string, Field<string>)>): (r: Option<nat>)
    ensures r.Some? ==> r.value < |fields| && EmptyField(fields[r.value].1)
    ensures r.Some? ==> forall j :: 0 <= j < r.value ==> !EmptyField(fields[j].1)
    ensures r.None? <==> forall j :: 0 <= j < |fields| ==> !EmptyField(fields[j].1)
  {
    if |fields| == 0 then None
    else if EmptyField(fields[0].1) then Some(0)
    else match FirstEmpty(fields[1..])
      case Some(i) => Some(i + 1)
      case None => None
  }

  /** `ceil(strlen($content) / 1000)`: minutes to read at 1000 bytes a
      minute. */
  function DefaultReadTime(content: string): (minutes: int)
    ensures minutes >= 0
    ensures minutes * 1000 >= Utf8.ByteLength(content)
    ensures minutes > 0 ==> (minutes - 1) * 1000 < Utf8.ByteLength(content)
    ensures content != "" ==> minutes >= 1
  {
    (Utf8.ByteLength(content) + 999) / 1000
  }

  /** The id `uniqid('article_', true)` produces, with its random part
      `unique` passed in. */
  function GeneratedId(unique: string): string {
    "article_" + unique
  }

  /** Every required key holds a non-empty string. */
  predicate AllRequiredPresent(b: ArticleBody) {
    && !EmptyField(b.title) && !EmptyField(b.summary) && !EmptyField(b.content)
    && !EmptyField(b.category) && !EmptyField(b.authorId)
  }

  /** The loop finding no empty key means every required key is present. */
  lemma RequiredPresent(b: ArticleBody)
    ensures FirstEmpty(Required(b)).None? <==> AllRequiredPresent(b)
  {
    var req := Required(b);
    if FirstEmpty(req).None? {
      assert !EmptyField(req[0].1) && !EmptyField(req[1].1) && !EmptyField(req[2].1);
      assert !EmptyField(req[3].1) && !EmptyField(req[4].1);
    }
  }

  /** The row the INSERT writes for a body that passed validation. */
  function NewRow(b: ArticleBody, now: Timestamp): Row
    requires AllRequiredPresent(b)
  {
    Row(
      Some(b.title.value), Some(b.summary.value), Some(b.content.value),
      Some(b.category.value), Some(b.authorId.value),
      Some(b.publishedAt.OrDefault(now)),
      b.imageUrl.AsColumn(),
      Some(b.readTimeMinutes.OrDefault(DefaultReadTime(b.content.value))),
      Some(b.isTopStory.OrDefault(false)),
      b.aiSummary.AsColumn())
  }

  /** `handlePost` up to the commit. A duplicate primary key makes the INSERT
      throw; the transaction rolls back and the top-level handler answers
      500. */
  function CreateTx(db: Db, fold: string -> string, body: Option<ArticleBody>, unique: string, now: Timestamp): (r: Tx)
    ensures r.Committed? ==> body.Some? && !IsEmptyObject(body.value)
    ensures r.Committed? ==> AllRequiredPresent(body.value)
    ensures body.None? || IsEmptyObject(body.value) ==> r == Rejected(Response(400, Error("Invalid JSON")))
    ensures body.Some? && !IsEmptyObject(body.value) && AllRequiredPresent(body.value) ==>
              var id := if body.value.id.Given? then body.value.id.value else GeneratedId(unique);
              && (r.Committed? <==> id !in db.articles)
              && (r.Committed? ==> r.id == id && id in r.db.articles && r.db.articles[id] == NewRow(body.value, now))
              && (id in db.articles ==> r == Rejected(Response(500, DatabaseError)))
  {
    if body.None? || IsEmptyObject(body.value) then Rejected(Response(400, Error("Invalid JSON")))
    else
      var b := body.value;
      match FirstEmpty(Required(b))
      case Some(i) => Rejected(Response(400, Error("Missing required field: " + Required(b)[i].0)))
      case None =>
        RequiredPresent(b);
        var id := if b.id.Given? then b.id.value else GeneratedId(unique);
        if id in db.articles then Rejected(Response(500, DatabaseError))
        else
          var inserted := db.(articles := db.articles[id := NewRow(b, now)]);
          if b.tags.Given? && |b.tags.value| > 0 then Committed(InsertTags(inserted, fold, id, b.tags.value), id)
          else Committed(inserted, id)
  }

  // ---------------------------------------------------------------------
  // PUT

  /** Writes a column only when its key is present. */
  function Write<T>(column: Option<T>, f: Field<T>): Option<T> {
    if f.Absent? then column else f.AsColumn()
  }

  /** True when the body names at least one updatable column (the
      `$allowedFields` list: everything but `id` and `tags`). */
  predicate HasUpdatableField(b: ArticleBody) {
    || !b.title.Absent? || !b.summary.Absent? || !b.content.Absent? || !b.category.Absent?
    || !b.authorId.Absent? || !b.publishedAt.Absent? || !b.imageUrl.Absent?
    || !b.readTimeMinutes.Absent? || !b.isTopStory.Absent? || !b.aiSummary.Absent?
  }

  /** A column after an update: kept when its key is absent, NULL for a
      `null` key, the given value otherwise. */
  predicate Wrote<T(==)>(before: Option<T>, after: Option<T>, f: Field<T>) {
    && (f.Absent? ==> after == before)
    && (f.Null? ==> after.None?)
    && (f.Given? ==> after == Some(f.value))
  }

  /** The dynamic `UPDATE articles SET ...` applied to one row. */
  function Patch(row: Row, b: ArticleBody): (r: Row)
    ensures Wrote(row.title, r.title, b.title) && Wrote(row.summary, r.summary, b.summary)
    ensures Wrote(row.content, r.content, b.content) && Wrote(row.category, r.category, b.category)
    ensures Wrote(row.authorId, r.authorId, b.authorId) && Wrote(row.publishedAt, r.publishedAt, b.publishedAt)
    ensures Wrote(row.imageUrl, r.imageUrl, b.imageUrl) && Wrote(row.readTimeMinutes, r.readTimeMinutes, b.readTimeMinutes)
    ensures Wrote(row.isTopStory, r.isTopStory, b.isTopStory) && Wrote(row.aiSummary, r.aiSummary, b.aiSummary)
    ensures !HasUpdatableField(b) ==> r == row
  {
    Row(
      Write(row.title, b.title), Write(row.summary, b.summary), Write(row.content, b.content),
      Write(row.category, b.category), Write(row.authorId, b.authorId),
      Write(row.publishedAt, b.publishedAt), Write(row.imageUrl, b.imageUrl),
      Write(row.readTimeMinutes, b.readTimeMinutes), Write(row.isTopStory, b.isTopStory),
      Write(row.aiSummary, b.aiSummary))
  }

  /** `DELETE FROM article_tags WHERE article_id = ?`. */
  function Unlink(links: set<Link>, articleId: string): (r: set<Link>)
    ensures forall l :: l in r <==> l in links && l.articleId != articleId
  {
    set l | l in links && l.articleId != articleId
  }

  /** `handlePut` up to the commit. An UPDATE that matches no row is not an
      error: the tag replacement still runs, and the read-back answers 404. */
  function UpdateTx(db: Db, fold: string -> string, body: Option<ArticleBody>): (r: Tx)
    ensures r.Committed? <==> body.Some? && !EmptyField(body.value.id) && HasUpdatableField(body.value)
    ensures r.Rejected? ==> r.response.status == 400
    ensures r.Committed? ==> r.id == body.value.id.value
    ensures r.Committed? ==> r.db.articles.Keys == db.articles.Keys && r.db.authors == db.authors
    ensures r.Committed? && r.id in db.articles ==> r.db.articles[r.id] == Patch(db.articles[r.id], body.value)
  {
    if body.None? || EmptyField(body.value.id) then Rejected(Response(400, Error("Missing article ID")))
    else if !HasUpdatableField(body.value) then Rejected(Response(400, Error("No fields to update")))
    else
      var b := body.value;
      var id := b.id.value;
      var updated := if id in db.articles then db.(articles := db.articles[id := Patch(db.articles[id], b)]) else db;
      if b.tags.Given? then Committed(InsertTags(updated.(links := Unlink(updated.links, id)), fold, id, b.tags.value), id)
      else Committed(updated, id)
  }

  // ---------------------------------------------------------------------
  // DELETE

  datatype Step = Step(response: Response, db: Db)

  /** `handleDelete`. Only the `articles` row goes; links are left alone. */
  function Delete(db: Db, id: Option<string>): (s: Step)
    ensures s.response.status == 200 <==> id.Some? && id.value in db.articles
    ensures s.response.status != 200 ==> s.db == db
    ensures s.response.status == 200 ==> s.db == db.(articles := db.articles - {id.value})
    ensures s.response.status == 200 ==> s.response.payload == Deleted
  {
    if id.None? then Step(Response(400, Error("Missing article ID")), db)
    else if id.value !in db.articles then Step(Response(404, Error("Article not found")), db)
    else Step(Response(200, Deleted), db.(articles := db.articles - {id.value}))
  }

  // ---------------------------------------------------------------------
  // GET

  /** Article `id`, or 404. */
  method GetById(db: Db, id: string) returns (resp: Response)
    ensures id !in db.articles ==> resp == Response(404, Error("Article not found"))
    ensures id in db.articles ==> resp.status == 200 && resp.payload.One?
    ensures id in db.articles ==> resp.payload.article.id == id && IsRendering(db, id, resp.payload.article)
  {
    if id !in db.articles {
      return Response(404, Error("Article not found"));
    }
    var a := Render(db, id);
    return Response(200, One(a));
  }

  /** The category condition is on: `category` is set and is not "All". */
  predicate CategoryFilterOn(query: map<string, string>) {
    "category" in query && query["category"] != "All"
  }

  /** The search condition is on: `search` is set and not empty. */
  predicate SearchOn(query: map<string, string>) {
    "search" in query && !PhpEmpty(query["search"])
  }

  /** `title LIKE %s% OR summary LIKE %s%`; a NULL column matches nothing. */
  predicate TitleOrSummaryContains(title: Option<string>, summary: Option<string>, s: string) {
    (title.Some? && Contains(title.value, s)) || (summary.Some? && Contains(summary.value, s))
  }

  /** The WHERE clause: the conditions that are on, joined by AND. */
  predicate Matches(row: Row, query: map<string, string>) {
    && (CategoryFilterOn(query) ==> row.category == Some(query["category"]))
    && (SearchOn(query) ==> TitleOrSummaryContains(row.title, row.summary, query["search"]))
  }

  /** `a` may come before `b` under `ORDER BY published_at DESC`, where
      NULL sorts below every date. */
  predicate NotOlder(a: Option<Timestamp>, b: Option<Timestamp>) {
    b.None? || (a.Some? && a.value >= b.value)
  }

  /** `x` is an article at least as new as every article of `s`. */
  predicate NewestOf(arts: map<string, Row>, x: string, s: set<string>) {
    x in arts && forall y :: y in s && y in arts ==> NotOlder(arts[x].publishedAt, arts[y].publishedAt)
  }

  /** A finite non-empty set of ids holds a newest article. */
  lemma {:induction false} NewestExists(arts: map<string, Row>, s: set<string>)
    requires s != {} && s <= arts.Keys
    ensures exists x :: x in s && NewestOf(arts, x, s)
    decreases s
  {
    var x :| x in s;
    if s == {x} {
      assert NewestOf(arts, x, s);
    } else {
      NewestExists(arts, s - {x});
      var m :| m in s - {x} && NewestOf(arts, m, s - {x});
      if NotOlder(arts[m].publishedAt, arts[x].publishedAt) {
        assert NewestOf(arts, m, s);
      } else {
        assert NewestOf(arts, x, s);
      }
    }
  }

  /** The ids the list query returns, newest first; ties come in whatever
      order the database picks. */
  method ListIds(db: Db, query: map<string, string>) returns (ids: seq<string>)
    ensures forall i :: 0 <= i < |ids| ==> ids[i] in db.articles && Matches(db.articles[ids[i]], query)
    ensures forall id :: id in db.articles && Matches(db.articles[id], query) ==> id in ids
    ensures forall i, j :: 0 <= i < j < |ids| ==> ids[i] != ids[j]
    ensures forall i, j :: 0 <= i < j < |ids| ==> NotOlder(db.articles[ids[i]].publishedAt, db.articles[ids[j]].publishedAt)
  {
    var arts := db.articles;
    var remaining := set id | id in arts && Matches(arts[id], query);
    ids := [];
    while remaining != {}
      invariant remaining <= arts.Keys
      invariant forall id :: id in remaining ==> Matches(arts[id], query)
      invariant forall i :: 0 <= i < |ids| ==> ids[i] in arts && Matches(arts[ids[i]], query)
      invariant forall i :: 0 <= i < |ids| ==> ids[i] !in remaining
      invariant forall id :: id in arts && Matches(arts[id], query) ==> id in ids || id in remaining
      invariant forall i, j :: 0 <= i < j < |ids| ==> ids[i] != ids[j]
      invariant forall i, j :: 0 <= i < j < |ids| ==> NotOlder(arts[ids[i]].publishedAt, arts[ids[j]].publishedAt)
      invariant forall i :: 0 <= i < |ids| ==> NewestOf(arts, ids[i], remaining)
      decreases remaining
    {
      NewestExists(arts, remaining);
      var next :| next in remaining && NewestOf(arts, next, remaining);
      ids := ids + [next];
      remaining := remaining - {next};
    }
  }

  /** The ids of a list of articles, in order. */
  function IdsOf(articles: seq<ArticleJson>): (ids: seq<string>)
    ensures |ids| == |articles|
    ensures forall i :: 0 <= i < |articles| ==> ids[i] == articles[i].id
  {
    seq(|articles|, i requires 0 <= i < |articles| => articles[i].id)
  }

  /** `out` is what the list query answers: renderings of exactly the
      articles that pass both filters, each once, newest first. */
  ghost predicate IsListing(db: Db, query: map<string, string>, out: seq<ArticleJson>) {
    && (forall i :: 0 <= i < |out| ==> out[i].id in db.articles && IsRendering(db, out[i].id, out[i]))
    && (forall i :: 0 <= i < |out| ==> Matches(db.articles[out[i].id], query))
    && (forall i :: 0 <= i < |out| && CategoryFilterOn(query) ==> out[i].category == Some(query["category"]))
    && (forall i :: 0 <= i < |out| && SearchOn(query) ==> TitleOrSummaryContains(out[i].title, out[i].summary, query["search"]))
    && (forall id :: id in db.articles && Matches(db.articles[id], query) ==> id in IdsOf(out))
    && (forall i, j :: 0 <= i < j < |out| ==> out[i].id != out[j].id)
    && (forall i, j :: 0 <= i < j < |out| ==> NotOlder(out[i].publishedAt, out[j].publishedAt))
  }

  /** The list branch of `handleGet`. */
  method List(db: Db, query: map<string, string>) returns (resp: Response)
    ensures resp.status == 200 && resp.payload.Many?
    ensures IsListing(db, query, resp.payload.articles)
  {
    var ids := ListIds(db, query);
    var out := RenderAll(db, ids);
    assert IdsOf(out) == ids;
    return Response(200, Many(out));
  }

  /** Renders each listed id in turn. */
  method RenderAll(db: Db, ids: seq<string>) returns (out: seq<ArticleJson>)
    requires forall i :: 0 <= i < |ids| ==> ids[i] in db.articles
    ensures |out| == |ids|
    ensures forall i :: 0 <= i < |ids| ==> out[i].id == ids[i] && IsRendering(db, ids[i], out[i])
    ensures forall i :: 0 <= i < |ids| ==> out[i].category == db.articles[ids[i]].category
    ensures forall i :: 0 <= i < |ids| ==> out[i].title == db.articles[ids[i]].title && out[i].summary == db.articles[ids[i]].summary
    ensures forall i :: 0 <= i < |ids| ==> out[i].publishedAt == db.articles[ids[i]].publishedAt
  {
    out := [];
    var k := 0;
    while k < |ids|
      invariant 0 <= k <= |ids| && |out| == k
      invariant forall i :: 0 <= i < k ==> out[i].id == ids[i] && IsRendering(db, ids[i], out[i])
      invariant forall i :: 0 <= i < k ==> out[i].category == db.articles[ids[i]].category
      invariant forall i :: 0 <= i < k ==> out[i].title == db.articles[ids[i]].title && out[i].summary == db.articles[ids[i]].summary
      invariant forall i :: 0 <= i < k ==> out[i].publishedAt == db.articles[ids[i]].publishedAt
    {
      var a := Render(db, ids[k]);
      out := out + [a];
      k := k + 1;
    }
  }

  /** `handleGet`: by id when `id` is set, else the filtered list. */
  method Get(db: Db, query: map<string, string>) returns (resp: Response)
    ensures "id" in query && query["id"] !in db.articles ==> resp == Response(404, Error("Article not found"))
    ensures "id" in query && query["id"] in db.articles ==> resp.status == 200 && resp.payload.One? && IsRendering(db, query["id"], resp.payload.article)
    ensures "id" !in query ==> resp.status == 200 && resp.payload.Many? && IsListing(db, query, resp.payload.articles)
  {
    if "id" in query {
      resp := GetById(db, query["id"]);
    } else {
      resp := List(db, query);
    }
  }

  // ---------------------------------------------------------------------
  // Dispatch

  datatype Request = Request(verb: string, query: map<string, string>, body: Option<ArticleBody>)

  /** Every answer `handleGet` may give to `query`. */
  ghost predicate AnswersGet(db: Db, query: map<string, string>, resp: Response) {
    && ("id" in query && query["id"] !in db.articles ==> resp == Response(404, Error("Article not found")))
    && ("id" in query && query["id"] in db.articles ==>
          resp.status == 200 && resp.payload.One? && IsRendering(db, query["id"], resp.payload.article))
    && ("id" !in query ==> resp.status == 200 && resp.payload.Many? && IsListing(db, query, resp.payload.articles))
  }

  /** The method switch at the top of api/articles.php. A committed write is
      answered with the article as `handleGet` reads it back. */
  method Handle(db: Db, fold: string -> string, req: Request, unique: string, now: Timestamp) returns (resp: Response, db': Db)
    ensures req.verb == "GET" ==> db' == db && AnswersGet(db, req.query, resp)
    ensures req.verb !in {"GET", "POST", "PUT", "DELETE"} ==> resp == Response(405, Error("Method not allowed")) && db' == db
    ensures req.verb == "POST" ==> match CreateTx(db, fold, req.body, unique, now)
      case Rejected(r) => resp == r && db' == db
      case Committed(d, id) => db' == d && resp.status == 200 && resp.payload.One? && IsRendering(d, id, resp.payload.article)
    ensures req.verb == "PUT" ==> match UpdateTx(db, fold, req.body)
      case Rejected(r) => resp == r && db' == db
      case Committed(d, id) => db' == d && (resp.status == 200 <==> id in d.articles)
    ensures req.verb == "DELETE" ==> resp == Delete(db, if "id" in req.query then Some(req.query["id"]) else None).response
    ensures req.verb == "DELETE" ==> db' == Delete(db, if "id" in req.query then Some(req.query["id"]) else None).db
    ensures resp.status != 200 && req.verb != "PUT" ==> db' == db
    ensures Valid(db, fold) ==> Valid(db', fold)
  {
    match req.verb
    case "GET" =>
      resp := Get(db, req.query);
      db' := db;
    case "POST" =>
      match CreateTx(db, fold, req.body, unique, now) {
        case Rejected(r) =>
          resp, db' := r, db;
        case Committed(d, id) =>
          CreateValid(db, fold, req.body, unique, now);
          CreateStoresArticle(db, fold, req.body, unique, now);
          resp := GetById(d, id);
          db' := d;
      }
    case "PUT" =>
      match UpdateTx(db, fold, req.body) {
        case Rejected(r) =>
          resp, db' := r, db;
        case Committed(d, id) =>
          UpdateValid(db, fold, req.body);
          resp := GetById(d, id);
          db' := d;
      }
    case "DELETE" =>
      var step := Delete(db, if "id" in req.query then Some(req.query["id"]) else None);
      resp, db' := step.response, step.db;
    case _ =>
      resp, db' := Response(405, Error("Method not allowed")), db;
  }

  // ---------------------------------------------------------------------
  // Properties

  /** Validation of a create is complete and ordered: a create commits only
      when all five required keys are non-empty, and an empty one is
      reported as the first missing key in the order title, summary,
      content, category, author_id. */
  lemma CreateValidation(db: Db, fold: string -> string, b: ArticleBody, unique: string, now: Timestamp)
    requires !IsEmptyObject(b)
    ensures var r := CreateTx(db, fold, Some(b), unique, now);
      && (r.Committed? ==> AllRequiredPresent(b))
      && (EmptyField(b.title) ==> r == Rejected(Response(400, Error("Missing required field: title"))))
      && ((!EmptyField(b.title) && EmptyField(b.summary)) ==>
            r == Rejected(Response(400, Error("Missing required field: summary"))))
      && ((!EmptyField(b.title) && !EmptyField(b.summary) && EmptyField(b.content)) ==>
            r == Rejected(Response(400, Error("Missing required field: content"))))
      && ((!EmptyField(b.title) && !EmptyField(b.summary) && !EmptyField(b.content) && EmptyField(b.category)) ==>
            r == Rejected(Response(400, Error("Missing required field: category"))))
      && ((!EmptyField(b.title) && !EmptyField(b.summary) && !EmptyField(b.content) && !EmptyField(b.category)
           && EmptyField(b.authorId)) ==> r == Rejected(Response(400, Error("Missing required field: author_id"))))
  {
    var req := Required(b);
    var first := FirstEmpty(req);
    if EmptyField(b.title) {
      assert EmptyField(req[0].1);
      assert first == Some(0);
      assert "Missing required field: " + req[0].0 == "Missing required field: title";
    } else if EmptyField(b.summary) {
      assert !EmptyField(req[0].1) && EmptyField(req[1].1);
      assert first == Some(1);
      assert "Missing required field: " + req[1].0 == "Missing required field: summary";
    } else if EmptyField(b.content) {
      assert !EmptyField(req[0].1) && !EmptyField(req[1].1) && EmptyField(req[2].1);
      assert first == Some(2);
      assert "Missing required field: " + req[2].0 == "Missing required field: content";
    } else if EmptyField(b.category) {
      assert !EmptyField(req[0].1) && !EmptyField(req[1].1) && !EmptyField(req[2].1) && EmptyField(req[3].1);
      assert first == Some(3);
      assert "Missing required field: " + req[3].0 == "Missing required field: category";
    } else if EmptyField(b.authorId) {
      assert !EmptyField(req[0].1) && !EmptyField(req[1].1) && !EmptyField(req[2].1) && !EmptyField(req[3].1);
      assert EmptyField(req[4].1);
      assert first == Some(4);
      assert "Missing required field: " + req[4].0 == "Missing required field: author_id";
    }
  }

  /** A committed create stores exactly one new row under the given or the
      generated id, with the defaults of the source: the current time, no
      image, `ceil(strlen(content)/1000)` minutes, not a top story. The only
      other change is the tag upsert for that article. */
  lemma CreateStoresArticle(db: Db, fold: string -> string, body: Option<ArticleBody>, unique: string, now: Timestamp)
    ensures match CreateTx(db, fold, body, unique, now)
      case Rejected(_) => true
      case Committed(d, id) =>
        var b := body.value;
        && id !in db.articles
        && id == (if b.id.Given? then b.id.value else GeneratedId(unique))
        && d.articles == db.articles[id := d.articles[id]]
        && d.authors == db.authors
        && var row := d.articles[id];
        && row.title == Some(b.title.value) && row.summary == Some(b.summary.value)
        && row.content == Some(b.content.value) && row.category == Some(b.category.value)
        && row.authorId == Some(b.authorId.value)
        && row.publishedAt == Some(if b.publishedAt.Given? then b.publishedAt.value else now)
        && row.imageUrl == b.imageUrl.AsColumn() && row.aiSummary == b.aiSummary.AsColumn()
        && row.readTimeMinutes == Some(if b.readTimeMinutes.Given? then b.readTimeMinutes.value else DefaultReadTime(b.content.value))
        && row.isTopStory == Some(b.isTopStory.Given? && b.isTopStory.value)
        && (forall l :: l in d.links ==> l in db.links || l.articleId == id)
        && (b.tags.Given? && |b.tags.value| > 0 ==> d.links == db.links + LinksFor(d, fold, id, b.tags.value))
        && (!(b.tags.Given? && |b.tags.value| > 0) ==> d.links == db.links && d.tags == db.tags)
  {
    match CreateTx(db, fold, body, unique, now)
    case Rejected(_) =>
    case Committed(d, id) =>
      var b := body.value;
      assert FirstEmpty(Required(b)).None?;
      assert !EmptyField(Required(b)[0].1) && !EmptyField(Required(b)[1].1) && !EmptyField(Required(b)[2].1);
      assert !EmptyField(Required(b)[3].1) && !EmptyField(Required(b)[4].1);
  }

  /** A create keeps the database invariant. */
  lemma CreateValid(db: Db, fold: string -> string, body: Option<ArticleBody>, unique: string, now: Timestamp)
    ensures CreateTx(db, fold, body, unique, now).Committed? && Valid(db, fold) ==>
              Valid(CreateTx(db, fold, body, unique, now).db, fold)
  {
    var r := CreateTx(db, fold, body, unique, now);
    if r.Committed? && Valid(db, fold) {
      var b := body.value;
      var inserted := db.(articles := db.articles[r.id := NewRow(b, now)]);
      assert inserted.tags == db.tags && inserted.nextTagId == db.nextTagId;
      assert Valid(inserted, fold);
      assert r.db == inserted || r.db == InsertTags(inserted, fold, r.id, b.tags.value);
    }
  }

  /** Update needs a non-empty id and at least one updatable key; a body with
      only `tags` besides the id is turned away like an empty one. */
  lemma UpdateValidation(db: Db, fold: string -> string, b: ArticleBody)
    ensures EmptyField(b.id) ==> UpdateTx(db, fold, Some(b)) == Rejected(Response(400, Error("Missing article ID")))
    ensures !EmptyField(b.id) && !HasUpdatableField(b) ==>
              UpdateTx(db, fold, Some(b)) == Rejected(Response(400, Error("No fields to update")))
    ensures UpdateTx(db, fold, Some(b)).Committed? <==> !EmptyField(b.id) && HasUpdatableField(b)
    ensures !EmptyField(b.id) && b.tags.Given? && !HasUpdatableField(b) ==> UpdateTx(db, fold, Some(b)).Rejected?
  {
  }

  /** A committed update writes exactly the columns whose keys are present,
      on that one article; every other article is untouched. */
  lemma UpdateWritesPresentKeys(db: Db, fold: string -> string, b: ArticleBody)
    requires UpdateTx(db, fold, Some(b)).Committed?
    ensures var d := UpdateTx(db, fold, Some(b)).db;
            var id := b.id.value;
      && d.articles.Keys == db.articles.Keys
      && (forall other :: other in db.articles && other != id ==> d.articles[other] == db.articles[other])
      && (id in db.articles ==>
            var before := db.articles[id];
            var after := d.articles[id];
            && (b.title.Absent? ==> after.title == before.title)
            && (!b.title.Absent? ==> after.title == b.title.AsColumn())
            && (b.summary.Absent? ==> after.summary == before.summary)
            && (!b.summary.Absent? ==> after.summary == b.summary.AsColumn())
            && (b.content.Absent? ==> after.content == before.content)
            && (!b.content.Absent? ==> after.content == b.content.AsColumn())
            && (b.category.Absent? ==> after.category == before.category)
            && (!b.category.Absent? ==> after.category == b.category.AsColumn())
            && (b.authorId.Absent? ==> after.authorId == before.authorId)
            && (!b.authorId.Absent? ==> after.authorId == b.authorId.AsColumn())
            && (b.publishedAt.Absent? ==> after.publishedAt == before.publishedAt)
            && (!b.publishedAt.Absent? ==> after.publishedAt == b.publishedAt.AsColumn())
            && (b.imageUrl.Absent? ==> after.imageUrl == before.imageUrl)
            && (!b.imageUrl.Absent? ==> after.imageUrl == b.imageUrl.AsColumn())
            && (b.readTimeMinutes.Absent? ==> after.readTimeMinutes == before.readTimeMinutes)
            && (!b.readTimeMinutes.Absent? ==> after.readTimeMinutes == b.readTimeMinutes.AsColumn())
            && (b.isTopStory.Absent? ==> after.isTopStory == before.isTopStory)
            && (!b.isTopStory.Absent? ==> after.isTopStory == b.isTopStory.AsColumn())
            && (b.aiSummary.Absent? ==> after.aiSummary == before.aiSummary)
            && (!b.aiSummary.Absent? ==> after.aiSummary == b.aiSummary.AsColumn()))
  {
  }

  /** A present `tags` array replaces the article's whole link set with the
      links of the listed names; other articles' links stay. Without it the
      tag tables are untouched. */
  lemma UpdateReplacesTags(db: Db, fold: string -> string, b: ArticleBody)
    requires UpdateTx(db, fold, Some(b)).Committed?
    ensures var d := UpdateTx(db, fold, Some(b)).db;
            var id := b.id.value;
      && (b.tags.Given? ==>
            && (forall l :: l in d.links && l.articleId == id ==> l in LinksFor(d, fold, id, b.tags.value))
            && LinksFor(d, fold, id, b.tags.value) <= d.links
            && (forall l: Link :: l.articleId != id ==> (l in d.links <==> l in db.links)))
      && (!b.tags.Given? ==> d.links == db.links && d.tags == db.tags)
  {
  }

  /** An update keeps the database invariant. */
  lemma UpdateValid(db: Db, fold: string -> string, body: Option<ArticleBody>)
    ensures UpdateTx(db, fold, body).Committed? && Valid(db, fold) ==> Valid(UpdateTx(db, fold, body).db, fold)
  {
    if UpdateTx(db, fold, body).Committed? && Valid(db, fold) {
      var b := body.value;
      var id := b.id.value;
      var updated := if id in db.articles then db.(articles := db.articles[id := Patch(db.articles[id], b)]) else db;
      assert Valid(updated, fold);
      assert Valid(updated.(links := Unlink(updated.links, id)), fold);
    }
  }

  /** Delete removes exactly the one row and answers success; a missing id
      is a 404 that changes nothing, and no id at all is a 400. Tags and
      links are never touched. */
  lemma DeleteOutcome(db: Db, id: Option<string>)
    ensures var s := Delete(db, id);
      && s.db.links == db.links && s.db.tags == db.tags && s.db.authors == db.authors
      && (id.None? ==> s.response.status == 400 && s.db == db)
      && (id.Some? && id.value !in db.articles ==> s.response.status == 404 && s.db == db)
      && (id.Some? && id.value in db.articles ==>
            s.response == Response(200, Deleted) && s.db.articles.Keys == db.articles.Keys - {id.value}
            && forall other :: other in s.db.articles ==> s.db.articles[other] == db.articles[other])
  {
  }

  /** Reading an article back after deleting it answers 404. */
  method DeleteThenGet(db: Db, id: string) returns (resp: Response)
    ensures resp == Response(404, Error("Article not found"))
  {
    var step := Delete(db, Some(id));
    resp := GetById(step.db, id);
  }

  /** Reading back a freshly created article answers 200 with that article. */
  method CreateThenGet(db: Db, fold: string -> string, b: ArticleBody, unique: string, now: Timestamp) returns (resp: Response)
    requires CreateTx(db, fold, Some(b), unique, now).Committed?
    ensures var tx := CreateTx(db, fold, Some(b), unique, now);
      && resp.status == 200 && resp.payload.One?
      && resp.payload.article.id == tx.id
      && resp.payload.article.title == Some(b.title.value)
      && resp.payload.article.summary == Some(b.summary.value)
      && resp.payload.article.content == Some(b.content.value)
      && resp.payload.article.category == Some(b.category.value)
      && resp.payload.article.isTopStory == (b.isTopStory.Given? && b.isTopStory.value)
  {
    var tx := CreateTx(db, fold, Some(b), unique, now);
    CreateStoresArticle(db, fold, Some(b), unique, now);
    resp := GetById(tx.db, tx.id);
    ghost var keys: seq<string> :| IsEnumeration(keys, LinkedKeys(tx.db, tx.id)) && resp.payload.article == FormatArticle(SelectRow(tx.db, tx.id, keys));
  }
}

=== FILE: auth.dfy ===
/** The admin session endpoint of api/auth.php: `login`, `logout` and
    `verify`, chosen by the `action` query parameter, plus the
    `requireAuth` guard other endpoints call.

    The PHP session becomes an explicit value; `password_verify` and the
    clock are parameters. */
module Auth {

  import opened Wrappers
  import opened Text

  type Timestamp = int

  /** A row of `admin_users`. */
  datatype AdminUser = AdminUser(
    id: nat, username: string, passwordHash: string, email: string,
    isActive: bool, lastLogin: Option<Timestamp>)

  /** What a successful login stores in `$_SESSION`. */
  datatype SessionUser = SessionUser(id: nat, username: string, email: string)

  /** The admin table and the caller's session (`None`: no `admin_id` set). */
  datatype AuthState = AuthState(admins: seq<AdminUser>, session: Option<SessionUser>)

  /** The login body: `None` for a key that is absent or null, and for every
      key when the body is not JSON. */
  datatype Credentials = Credentials(username: Option<string>, password: Option<string>)

  datatype AuthPayload =
    | LoggedIn(user: SessionUser)
    | LoggedOut
    | Authenticated(user: SessionUser)
    | NotAuthenticated
    | AuthError(message: string)

  datatype AuthResponse = AuthResponse(status: nat, payload: AuthPayload)

  /** PHP `empty($data[k])`. */
  predicate Blank(v: Option<string>) {
    v.None? || PhpEmpty(v.value)
  }

  /** The session fields a user row yields. */
  function SessionOf(u: AdminUser): SessionUser {
    SessionUser(u.id, u.username, u.email)
  }

  /** `SELECT * ... WHERE username = ? AND is_active = 1` followed by one
      `fetch()`: the first active row whose name matches under the
      collation `fold`. */
  function FindActive(admins: seq<AdminUser>, fold: string -> string, name: string): (r: Option<nat>)
    ensures r.Some? ==> r.value < |admins| && admins[r.value].isActive && fold(admins[r.value].username) == fold(name)
    ensures r.Some? ==> forall j :: 0 <= j < r.value ==> !(admins[j].isActive && fold(admins[j].username) == fold(name))
    ensures r.None? <==> forall j :: 0 <= j < |admins| ==> !(admins[j].isActive && fold(admins[j].username) == fold(name))
  {
    if |admins| == 0 then None
    else if admins[0].isActive && fold(admins[0].username) == fold(name) then Some(0)
    else match FindActive(admins[1..], fold, name)
      case Some(i) => Some(i + 1)
      case None => None
  }

  /** `UPDATE admin_users SET last_login = NOW() WHERE id = ?`. */
  function Touch(admins: seq<AdminUser>, id: nat, now: Timestamp): (r: seq<AdminUser>)
    ensures |r| == |admins|
    ensures forall j :: 0 <= j < |admins| && admins[j].id != id ==> r[j] == admins[j]
    ensures forall j :: 0 <= j < |admins| && admins[j].id == id ==> r[j] == admins[j].(lastLogin := Some(now))
  {
    seq(|admins|, j requires 0 <= j < |admins| =>
      if admins[j].id == id then admins[j].(lastLogin := Some(now)) else admins[j])
  }

  /** `handleLogin`. A failure leaves the state as it was, including any
      session the caller already holds. */
  function Login(st: AuthState, fold: string -> string, passwordVerify: (string, string) -> bool,
                 creds: Credentials, now: Timestamp): (out: (AuthResponse, AuthState))
    ensures out.0.status == 200 || out.0.status == 400 || out.0.status == 401
    ensures out.0.status != 200 ==> out.1 == st
    ensures out.0.status == 200 ==> out.0.payload.LoggedIn? && out.1.session == Some(out.0.payload.user)
  {
    if Blank(creds.username) || Blank(creds.password) then
      (AuthResponse(400, AuthError("Username and password required")), st)
    else match FindActive(st.admins, fold, creds.username.value)
      case None => (AuthResponse(401, AuthError("Invalid credentials")), st)
      case Some(i) =>
        var u := st.admins[i];
        if !passwordVerify(creds.password.value, u.passwordHash) then
          (AuthResponse(401, AuthError("Invalid credentials")), st)
        else
          (AuthResponse(200, LoggedIn(SessionOf(u))),
           AuthState(Touch(st.admins, u.id, now), Some(SessionOf(u))))
  }

  /** `handleLogout`: the session is destroyed. */
  function Logout(st: AuthState): (out: (AuthResponse, AuthState))
    ensures out.0 == AuthResponse(200, LoggedOut)
    ensures out.1.session.None? && out.1.admins == st.admins
  {
    (AuthResponse(200, LoggedOut), st.(session := None))
  }

  /** `handleVerify`: reports the session without changing anything. */
  function Verify(session: Option<SessionUser>): (r: AuthResponse)
    ensures r.status == 200
    ensures r.payload.Authenticated? <==> session.Some?
    ensures r.payload.Authenticated? ==> r.payload.user == session.value
    ensures session.None? ==> r.payload == NotAuthenticated
  {
    match session
    case Some(u) => AuthResponse(200, Authenticated(u))
    case None => AuthResponse(200, NotAuthenticated)
  }

  /** `requireAuth`: `None` lets the caller go on; otherwise the 401 that
      ends the request. */
  function RequireAuth(session: Option<SessionUser>): (r: Option<AuthResponse>)
    ensures r.None? <==> session.Some?
    ensures r.Some? ==> r.value == AuthResponse(401, AuthError("Unauthorized"))
  {
    if session.None? then Some(AuthResponse(401, AuthError("Unauthorized"))) else None
  }

  /** The `action` switch. Only `login` checks the HTTP method. */
  function Handle(st: AuthState, fold: string -> string, passwordVerify: (string, string) -> bool,
                  verb: string, action: Option<string>, creds: Credentials, now: Timestamp): (out: (AuthResponse, AuthState))
    ensures action != Some("login") && action != Some("logout") ==> out.1 == st
    ensures action == Some("login") && verb != "POST" ==> out == (AuthResponse(405, AuthError("Method not allowed")), st)
    ensures action.None? ==> out.0 == AuthResponse(400, AuthError("Invalid action"))
    ensures action.GetOr("") !in {"login", "logout", "verify"} ==> out == (AuthResponse(400, AuthError("Invalid action")), st)
    ensures action == Some("verify") ==> out == (Verify(st.session), st)
    ensures action == Some("logout") ==> out == Logout(st)
    ensures action == Some("login") && verb == "POST" ==> out == Login(st, fold, passwordVerify, creds, now)
    ensures out.1.session != st.session ==> (action == Some("login") && out.0.status == 200) || action == Some("logout")
    ensures |out.1.admins| == |st.admins|
    ensures forall j :: 0 <= j < |st.admins| ==> out.1.admins[j] == st.admins[j].(lastLogin := out.1.admins[j].lastLogin)
  {
    match action.GetOr("")
    case "login" =>
      if verb != "POST" then (AuthResponse(405, AuthError("Method not allowed")), st)
      else Login(st, fold, passwordVerify, creds, now)
    case "logout" => Logout(st)
    case "verify" => (Verify(st.session), st)
    case _ => (AuthResponse(400, AuthError("Invalid action")), st)
  }

  // ---------------------------------------------------------------------
  // Properties

  /** A login succeeds exactly when both credentials are non-empty, an active
      user of that name exists, and the password verifies against the first
      such row's hash. */
  lemma LoginSucceedsIff(st: AuthState, fold: string -> string, passwordVerify: (string, string) -> bool,
                         creds: Credentials, now: Timestamp)
    ensures Login(st, fold, passwordVerify, creds, now).0.status == 200 <==>
      && !Blank(creds.username) && !Blank(creds.password)
      && (exists i :: 0 <= i < |st.admins| && FindActive(st.admins, fold, creds.username.value) == Some(i)
                     && passwordVerify(creds.password.value, st.admins[i].passwordHash))
    ensures Login(st, fold, passwordVerify, creds, now).0.status != 200 ==> Login(st, fold, passwordVerify, creds, now).1 == st
    ensures Blank(creds.username) || Blank(creds.password) ==>
              Login(st, fold, passwordVerify, creds, now).0 == AuthResponse(400, AuthError("Username and password required"))
    ensures !Blank(creds.username) && !Blank(creds.password) && Login(st, fold, passwordVerify, creds, now).0.status != 200 ==>
              Login(st, fold, passwordVerify, creds, now).0 == AuthResponse(401, AuthError("Invalid credentials"))
  {
    if !Blank(creds.username) && !Blank(creds.password) {
      var found := FindActive(st.admins, fold, creds.username.value);
      if found.Some? {
        assert 0 <= found.value < |st.admins| && FindActive(st.admins, fold, creds.username.value) == Some(found.value);
      }
    }
  }

  /** After a successful login, `verify` reports that user, and the only
      change to the table is the last-login time of rows with that id. */
  lemma LoginThenVerify(st: AuthState, fold: string -> string, passwordVerify: (string, string) -> bool,
                        creds: Credentials, now: Timestamp)
    requires Login(st, fold, passwordVerify, creds, now).0.status == 200
    ensures var (resp, st') := Login(st, fold, passwordVerify, creds, now);
      && resp.payload.LoggedIn?
      && Verify(st'.session) == AuthResponse(200, Authenticated(resp.payload.user))
      && RequireAuth(st'.session).None?
      && (exists i :: 0 <= i < |st.admins| && st.admins[i].isActive
                     && fold(st.admins[i].username) == fold(creds.username.value)
                     && resp.payload.user == SessionUser(st.admins[i].id, st.admins[i].username, st.admins[i].email))
      && forall j :: 0 <= j < |st.admins| ==>
           (st'.admins[j].lastLogin != st.admins[j].lastLogin ==> st'.admins[j].id == resp.payload.user.id)
  {
    var i := FindActive(st.admins, fold, creds.username.value).value;
    assert st.admins[i].isActive && fold(st.admins[i].username) == fold(creds.username.value);
  }

  /** After logout, `verify` reports no session and guarded endpoints answer
      401; logging out again answers the same and changes nothing. */
  lemma LogoutThenVerify(st: AuthState)
    ensures Logout(st).0 == AuthResponse(200, LoggedOut) && Logout(st).1.admins == st.admins
    ensures Logout(Logout(st).1) == Logout(st)
    ensures Verify(Logout(st).1.session) == AuthResponse(200, NotAuthenticated)
    ensures RequireAuth(Logout(st).1.session) == Some(AuthResponse(401, AuthError("Unauthorized")))
  {
  }

  /** The guard and `verify` agree: a request passes `requireAuth` exactly
      when `verify` would report it authenticated. */
  lemma RequireAuthAgreesWithVerify(session: Option<SessionUser>)
    ensures RequireAuth(session).None? <==> Verify(session).payload.Authenticated?
    ensures RequireAuth(session).Some? ==> RequireAuth(session).value.status == 401
  {
  }
}

=== FILE: text.dfy ===
/** String helpers shared by the server and the client models.

    A `string` is a sequence of Unicode scalar values. Where PHP counts
    bytes or JavaScript counts UTF-16 units, the caller says so. */
module Text {

  import opened Wrappers

  /** PHP's `empty()` on a string value: "" and "0" are both empty. */
  predicate PhpEmpty(s: string) {
    s == "" || s == "0"
  }

  /** The characters PHP's `trim()` strips by default:
      space, tab, newline, carriage return, NUL and vertical tab. */
  predicate IsPhpSpace(c: char) {
    c == ' ' || c == '\t' || c == '\n' || c == '\r' || c == 0 as char || c == 11 as char
  }

  /** The characters JavaScript's `String.prototype.trim` strips:
      the WhiteSpace and LineTerminator productions of ECMAScript. */
  predicate IsJsSpace(c: char) {
    var n := c as int;
    (9 <= n <= 13) || n == 32 || n == 0xA0 || n == 0x1680 || (0x2000 <= n <= 0x200A)
    || n == 0x2028 || n == 0x2029 || n == 0x202F || n == 0x205F || n == 0x3000 || n == 0xFEFF
  }

  /** Number of `isSpace` characters at the front of `s`. */
  function LeadingSpaces(s: string, isSpace: char -> bool): (n: nat)
    ensures n <= |s|
    ensures forall k :: 0 <= k < n ==> isSpace(s[k])
    ensures n < |s| ==> !isSpace(s[n])
  {
    if |s| == 0 || !isSpace(s[0]) then 0 else 1 + LeadingSpaces(s[1..], isSpace)
  }

  /** Number of `isSpace` characters at the back of `s`. */
  function TrailingSpaces(s: string, isSpace: char -> bool): (n: nat)
    ensures n <= |s|
    ensures forall k :: |s| - n <= k < |s| ==> isSpace(s[k])
    ensures n < |s| ==> !isSpace(s[|s| - 1 - n])
  {
    if |s| == 0 || !isSpace(s[|s| - 1]) then 0 else 1 + TrailingSpaces(s[..|s| - 1], isSpace)
  }

  /** The half-open window `[lo, hi)` that trimming keeps: everything
      outside it is space, and it starts and ends with a non-space. */
  function TrimBounds(s: string, isSpace: char -> bool): (b: (nat, nat))
    ensures b.0 <= b.1 <= |s|
    ensures forall k :: 0 <= k < b.0 ==> isSpace(s[k])
    ensures forall k :: b.1 <= k < |s| ==> isSpace(s[k])
    ensures b.0 < b.1 ==> !isSpace(s[b.0]) && !isSpace(s[b.1 - 1])
  {
    var lo := LeadingSpaces(s, isSpace);
    if lo == |s| then (lo, lo) else (lo, |s| - TrailingSpaces(s, isSpace))
  }

  /** Removes leading and trailing `isSpace` characters: the result is the
      stretch of `s` that starts after its leading spaces and is followed
      only by spaces. */
  function Trim(s: string, isSpace: char -> bool): (r: string)
    ensures |r| <= |s|
    ensures r == [] || (!isSpace(r[0]) && !isSpace(r[|r| - 1]))
    ensures r == [] <==> forall k :: 0 <= k < |s| ==> isSpace(s[k])
    ensures forall k :: 0 <= k < |r| ==> r[k] in s
    ensures LeadingSpaces(s, isSpace) + |r| <= |s|
    ensures r == s[LeadingSpaces(s, isSpace)..LeadingSpaces(s, isSpace) + |r|]
    ensures forall k :: LeadingSpaces(s, isSpace) + |r| <= k < |s| ==> isSpace(s[k])
  {
    var b := TrimBounds(s, isSpace);
    assert forall k :: 0 <= k < b.1 - b.0 ==> s[b.0..b.1][k] == s[b.0 + k];
    s[b.0..b.1]
  }

  /** A string with no space at either end. */
  predicate IsTrimmed(s: string, isSpace: char -> bool) {
    s == [] || (!isSpace(s[0]) && !isSpace(s[|s| - 1]))
  }

  /** Trimming changes nothing exactly when the string is already trimmed. */
  lemma TrimFixedPoint(s: string, isSpace: char -> bool)
    ensures Trim(s, isSpace) == s <==> IsTrimmed(s, isSpace)
  {
    if IsTrimmed(s, isSpace) {
      assert LeadingSpaces(s, isSpace) == 0;
      if |s| > 0 {
        assert TrailingSpaces(s, isSpace) == 0;
      }
    }
  }

  /** Trimming twice is trimming once. */
  lemma TrimIdempotent(s: string, isSpace: char -> bool)
    ensures Trim(Trim(s, isSpace), isSpace) == Trim(s, isSpace)
  {
    TrimFixedPoint(Trim(s, isSpace), isSpace);
  }

  /** `p` is a prefix of `s`. */
  predicate IsPrefix(p: string, s: string) {
    |p| <= |s| && s[..|p|] == p
  }

  /** `sub` occurs somewhere in `s` (SQL `LIKE '%sub%'` without wildcards,
      JavaScript `includes`). */
  predicate Contains(s: string, sub: string)
    decreases |s|
  {
    IsPrefix(sub, s) || (|s| > 0 && Contains(s[1..], sub))
  }

  /** Index of the first occurrence of `sep` in `s`, if any. */
  function IndexOf(s: string, sep: string): (r: Option<nat>)
    ensures r.Some? ==> r.value + |sep| <= |s| && IsPrefix(sep, s[r.value..])
    ensures r.Some? ==> forall j :: 0 <= j < r.value ==> !IsPrefix(sep, s[j..])
    ensures r.None? ==> forall j :: 0 <= j <= |s| ==> !IsPrefix(sep, s[j..])
    ensures r.None? <==> !Contains(s, sep)
    decreases |s|
  {
    if IsPrefix(sep, s) then Some(0)
    else if |s| == 0 then None
    else
      var rest := IndexOf(s[1..], sep);
      assert forall j :: 1 <= j <= |s| ==> s[j..] == s[1..][j - 1..];
      match rest
      case Some(i) => Some(i + 1)
      case None => None
  }

  /** Concatenates `parts` with `sep` between neighbours (PHP `implode`,
      JavaScript `join`, SQL `GROUP_CONCAT` with its default comma). */
  function Join(parts: seq<string>, sep: char): string
  {
    if |parts| == 0 then ""
    else if |parts| == 1 then parts[0]
    else parts[0] + [sep] + Join(parts[1..], sep)
  }

  /** Splits `s` at every `sep` (PHP `explode`, JavaScript `split` with a
      one-character separator). There is always at least one piece. */
  function Split(s: string, sep: char): (parts: seq<string>)
    ensures |parts| >= 1
    ensures forall i :: 0 <= i < |parts| ==> sep !in parts[i]
    ensures Join(parts, sep) == s
    decreases |s|
  {
    if |s| == 0 then [""]
    else if s[0] == sep then
      var rest := Split(s[1..], sep);
      assert [sep] + s[1..] == s;
      [""] + rest
    else
      var rest := Split(s[1..], sep);
      var parts := [[s[0]] + rest[0]] + rest[1..];
      assert parts[1..] == rest[1..];
      assert [s[0]] + s[1..] == s;
      parts
  }

  /** Splitting a string that starts with `sep`-free text `p`: `p` is glued
      to the first piece. */
  lemma {:induction false} SplitAfterPrefix(p: string, rest: string, sep: char)
    requires sep !in p
    ensures Split(p + rest, sep) == [p + Split(rest, sep)[0]] + Split(rest, sep)[1..]
    decreases |p|
  {
    if |p| > 0 {
      assert (p + rest)[1..] == p[1..] + rest;
      assert (p + rest)[0] == p[0];
      SplitAfterPrefix(p[1..], rest, sep);
      assert [p[0]] + (p[1..] + Split(rest, sep)[0]) == p + Split(rest, sep)[0];
    } else {
      var pieces := Split(rest, sep);
      assert p + rest == rest;
      assert p + pieces[0] == pieces[0];
      assert [pieces[0]] + pieces[1..] == pieces;
    }
  }

  /** A leading separator splits off an empty first piece. */
  lemma SplitLeadingSep(tail: string, sep: char)
    ensures Split([sep] + tail, sep) == [""] + Split(tail, sep)
  {
    var s := [sep] + tail;
    assert s[0] == sep && s[1..] == tail;
  }

  /** Joining pieces that contain no separator and splitting again gives the
      pieces back. */
  lemma {:induction false} SplitJoin(parts: seq<string>, sep: char)
    requires |parts| >= 1
    requires forall i :: 0 <= i < |parts| ==> sep !in parts[i]
    ensures Split(Join(parts, sep), sep) == parts
  {
    var head := parts[0];
    assert sep !in head;
    if |parts| == 1 {
      SplitAfterPrefix(head, "", sep);
      assert head + "" == head;
      assert [head] == parts;
    } else {
      var rest := parts[1..];
      assert forall i :: 0 <= i < |rest| ==> sep !in rest[i] by {
        forall i | 0 <= i < |rest| ensures sep !in rest[i] {
          assert rest[i] == parts[i + 1];
        }
      }
      var tail := Join(rest, sep);
      SplitJoin(rest, sep);
      JoinCons(parts, sep);
      SplitLeadingSep(tail, sep);
      SplitAfterPrefix(head, [sep] + tail, sep);
      var pieces := Split([sep] + tail, sep);
      assert pieces == [""] + rest;
      assert pieces[0] == "" && pieces[1..] == rest;
      assert head + "" == head;
      assert [head] + rest == parts;
    }
  }

  /** A join of two or more pieces starts with the first piece and a
      separator. */
  lemma JoinCons(parts: seq<string>, sep: char)
    requires |parts| >= 2
    ensures Join(parts, sep) == parts[0] + ([sep] + Join(parts[1..], sep))
  {
  }

  /** A string without the separator is a single piece. */
  lemma {:induction false} SplitWithoutSep(s: string, sep: char)
    ensures sep !in s ==> Split(s, sep) == [s]
    decreases |s|
  {
    if sep !in s && |s| > 0 {
      SplitWithoutSep(s[1..], sep);
      assert [s[0]] + s[1..] == s;
    }
  }

  /** Joining two non-empty lists of pieces is joining each and putting a
      separator between them. */
  lemma {:induction false} JoinAppend(a: seq<string>, b: seq<string>, sep: char)
    requires |a| >= 1 && |b| >= 1
    ensures Join(a + b, sep) == Join(a, sep) + [sep] + Join(b, sep)
    decreases |a|
  {
    assert (a + b)[0] == a[0] && (a + b)[1..] == a[1..] + b;
    if |a| > 1 {
      JoinAppend(a[1..], b, sep);
    }
  }

  /** JavaScript's `toLowerCase` restricted to ASCII letters. */
  function LowerAscii(c: char): (r: char)
    ensures 'A' <= c <= 'Z' ==> 'a' <= r <= 'z' && r as int - c as int == 32
    ensures !('A' <= c <= 'Z') ==> r == c
  {
    if 'A' <= c <= 'Z' then (c as int + 32) as char else c
  }

  function LowerAsciiString(s: string): (r: string)
    ensures |r| == |s|
    ensures forall i :: 0 <= i < |s| ==> r[i] == LowerAscii(s[i])
  {
    seq(|s|, i requires 0 <= i < |s| => LowerAscii(s[i]))
  }

  predicate IsDigit(c: char) {
    '0' <= c <= '9'
  }

  /** The number a string of decimal digits denotes. */
  function DigitsValue(s: string): nat
    requires forall i :: 0 <= i < |s| ==> IsDigit(s[i])
  {
    if |s| == 0 then 0
    else
      assert IsDigit(s[|s| - 1]);
      DigitsValue(s[..|s| - 1]) * 10 + (s[|s| - 1] as int - '0' as int)
  }

  /** Decimal rendering of a natural number, as PHP and JavaScript print it:
      the digits denote `n`, with no leading zero. */
  function Decimal(n: nat): (s: string)
    ensures |s| >= 1
    ensures forall i :: 0 <= i < |s| ==> IsDigit(s[i])
    ensures |s| > 1 ==> s[0] != '0'
    ensures DigitsValue(s) == n
  {
    if n < 10 then [('0' as int + n) as char]
    else
      var front := Decimal(n / 10);
      var s := front + [('0' as int + n % 10) as char];
      assert s[..|s| - 1] == front;
      s
  }
}

=== FILE: types.dfy ===
/** The client's data model from types.ts: the five categories, authors and
    articles as the front end holds them. */
module Types {

  import opened Wrappers

  datatype Category = News | DeepDive | Tutorial | Opinion | Research {

    /** The category's wire and display name. */
    function Name(): string {
      match this
      case News => "News"
      case DeepDive => "Deep Dive"
      case Tutorial => "Tutorial"
      case Opinion => "Opinion"
      case Research => "Research"
    }
  }

  /** The filter bar's choice: every category, or one of them. */
  datatype CategoryFilter = All | Only(category: Category) {

    function Name(): string {
      match this
      case All => "All"
      case Only(c) => c.Name()
    }
  }

  /** Reads a category back from its name. */
  function ParseCategory(name: string): (c: Option<Category>)
    ensures c.Some? ==> c.value.Name() == name
    ensures c.None? <==> name !in {"News", "Deep Dive", "Tutorial", "Opinion", "Research"}
  {
    match name
    case "News" => Some(News)
    case "Deep Dive" => Some(DeepDive)
    case "Tutorial" => Some(Tutorial)
    case "Opinion" => Some(Opinion)
    case "Research" => Some(Research)
    case _ => None
  }

  /** Names identify categories, and no category is called "All". */
  lemma CategoryNameRoundTrip(c: Category)
    ensures ParseCategory(c.Name()) == Some(c)
    ensures c.Name() != "All" && c.Name() != ""
  {
  }

  datatype Author = Author(id: string, name: string, avatarUrl: string, role: string)

  /** `Article` of types.ts. `isTopStory` and `aiSummary` are optional
      properties. */
  datatype Article = Article(
    id: string,
    title: string,
    summary: string,
    content: string,
    category: Category,
    author: Author,
    publishedAt: string,
    imageUrl: string,
    tags: seq<string>,
    isTopStory: Option<bool>,
    readTimeMinutes: int,
    aiSummary: Option<string>)
}

=== FILE: upload.dfy ===
/** The image upload endpoint of api/upload.php: the guards in the order the
    script applies them, and the stored file name and public URL.

    The random part of `uniqid` and the outcome of moving the file into
    place are parameters. */
module Upload {

  import opened Wrappers
  import Auth

  /** The `file` entry of `$_FILES`: client file name, client-declared MIME
      type and size in bytes. */
  datatype UploadedFile = UploadedFile(name: string, mimeType: string, size: nat)

  datatype UploadPayload = Uploaded(url: string, filename: string) | UploadError(message: string)

  datatype UploadResponse = UploadResponse(status: nat, payload: UploadPayload)

  const AllowedTypes: set<string> := {"image/jpeg", "image/png", "image/gif", "image/webp"}

  /** 5 MiB. */
  const MaxBytes: nat := 5 * 1024 * 1024

  /** `t` is a suffix of `s`. */
  predicate IsSuffix(t: string, s: string) {
    |t| <= |s| && s[|s| - |t|..] == t
  }

  /** What follows the last `c` in `s`; all of `s` when it holds no `c`. */
  function AfterLast(s: string, c: char): (r: string)
    ensures c !in r
    ensures IsSuffix(r, s)
    ensures c in s <==> |r| < |s|
    ensures |r| < |s| ==> s[|s| - |r| - 1] == c
  {
    if |s| == 0 then s
    else if s[|s| - 1] == c then ""
    else
      var init := s[..|s| - 1];
      var r := AfterLast(init, c) + [s[|s| - 1]];
      assert s == init + [s[|s| - 1]];
      assert c in s <==> c in init;
      r
  }

  /** Text with no `c` after a `c`: everything after the last `c` is that
      text. */
  lemma {:induction false} AfterLastAppend(p: string, t: string, c: char)
    requires |p| > 0 && p[|p| - 1] == c && c !in t
    ensures AfterLast(p + t, c) == t
    decreases |t|
  {
    if |t| == 0 {
      assert p + t == p;
    } else {
      var last := t[|t| - 1];
      assert (p + t)[..|p + t| - 1] == p + t[..|t| - 1];
      assert (p + t)[|p + t| - 1] == last;
      AfterLastAppend(p, t[..|t| - 1], c);
      assert t[..|t| - 1] + [last] == t;
    }
  }

  /** `basename`: the part after the last '/'. */
  function Basename(path: string): (b: string)
    ensures '/' !in b && IsSuffix(b, path)
  {
    AfterLast(path, '/')
  }

  /** A suffix of a suffix is a suffix. */
  lemma SuffixTransitive(a: string, b: string, c: string)
    requires IsSuffix(a, b) && IsSuffix(b, c)
    ensures IsSuffix(a, c)
    ensures |a| < |b| ==> c[|c| - |a| - 1] == b[|b| - |a| - 1]
  {
    assert c[|c| - |a|..] == c[|c| - |b|..][|b| - |a|..];
  }

  /** A suffix holds no character its string does not hold. */
  lemma SuffixAvoids(a: string, b: string, c: char)
    requires IsSuffix(a, b) && c !in b
    ensures c !in a
  {
  }

  /** `pathinfo($name, PATHINFO_EXTENSION)`: what follows the last '.' of the
      base name, or "" when it has none. */
  function Extension(name: string): (ext: string)
    ensures '.' !in ext && '/' !in ext
    ensures IsSuffix(ext, name)
    ensures ext != "" ==> |ext| < |name| && name[|name| - |ext| - 1] == '.'
  {
    var b := Basename(name);
    if '.' in b then
      var ext := AfterLast(b, '.');
      SuffixTransitive(ext, b, name);
      SuffixAvoids(ext, b, '/');
      ext
    else ""
  }

  /** `uniqid('img_', true) . '.' . $extension`. */
  function StoredName(unique: string, clientName: string): string {
    "img_" + unique + "." + Extension(clientName)
  }

  /** The public URL of a stored file. */
  function PublicUrl(filename: string): string {
    "/uploads/" + filename
  }

  /** The whole script: `requireAuth`, the method check, then
      `handleUpload`. */
  function HandleUpload(session: Option<Auth.SessionUser>, verb: string, file: Option<UploadedFile>,
                        unique: string, moved: bool): (r: UploadResponse)
    ensures session.None? ==> r == UploadResponse(401, UploadError("Unauthorized"))
    ensures r.status == 200 <==>
      && session.Some? && verb == "POST" && file.Some?
      && file.value.mimeType in AllowedTypes && file.value.size <= MaxBytes && moved
    ensures r.status == 200 ==> r.payload == Uploaded(PublicUrl(StoredName(unique, file.value.name)), StoredName(unique, file.value.name))
  {
    match Auth.RequireAuth(session)
    case Some(denied) => UploadResponse(401, UploadError(denied.payload.message))
    case None =>
      if verb != "POST" then UploadResponse(405, UploadError("Method not allowed"))
      else if file.None? then UploadResponse(400, UploadError("No file uploaded"))
      else if file.value.mimeType !in AllowedTypes then
        UploadResponse(400, UploadError("Invalid file type. Only JPG, PNG, GIF, and WebP allowed."))
      else if file.value.size > MaxBytes then UploadResponse(400, UploadError("File too large. Maximum size is 5MB."))
      else if !moved then UploadResponse(500, UploadError("Failed to save file"))
      else
        var filename := StoredName(unique, file.value.name);
        UploadResponse(200, Uploaded(PublicUrl(filename), filename))
  }

  // ---------------------------------------------------------------------
  // Properties

  /** The guards fire in source order: authentication before the method,
      the method before the file, the type before the size. A file of
      exactly 5 MiB passes the size check. */
  lemma GuardOrder(session: Option<Auth.SessionUser>, verb: string, file: Option<UploadedFile>, unique: string, moved: bool)
    ensures session.Some? && verb != "POST" ==> HandleUpload(session, verb, file, unique, moved).status == 405
    ensures session.Some? && verb == "POST" && file.None? ==> HandleUpload(session, verb, file, unique, moved).status == 400
    ensures session.Some? && verb == "POST" && file.Some? && file.value.mimeType !in AllowedTypes ==>
              HandleUpload(session, verb, file, unique, moved) ==
              UploadResponse(400, UploadError("Invalid file type. Only JPG, PNG, GIF, and WebP allowed."))
    ensures session.Some? && verb == "POST" && file.Some? && file.value.mimeType in AllowedTypes && file.value.size == MaxBytes && moved ==>
              HandleUpload(session, verb, file, unique, moved).status == 200
    ensures session.Some? && verb == "POST" && file.Some? && file.value.mimeType in AllowedTypes && file.value.size == MaxBytes + 1 ==>
              HandleUpload(session, verb, file, unique, moved) == UploadResponse(400, UploadError("File too large. Maximum size is 5MB."))
  {
  }

  /** The stored name keeps the client's extension: reading the extension
      back from it gives the original one, whatever the random part is, as
      long as it holds no '/'. */
  lemma StoredNameKeepsExtension(unique: string, clientName: string)
    requires '/' !in unique
    ensures Extension(StoredName(unique, clientName)) == Extension(clientName)
  {
    var ext := Extension(clientName);
    var front := "img_" + unique + ".";
    var s := StoredName(unique, clientName);
    assert s == front + ext;
    assert '/' !in front;
    assert '/' !in s;
    NoSeparatorBasename(s);
    assert front[|front| - 1] == '.';
    AfterLastAppend(front, ext, '.');
    assert s[|front| - 1] == '.';
  }

  /** A path with no '/' is its own base name. */
  lemma NoSeparatorBasename(path: string)
    requires '/' !in path
    ensures Basename(path) == path
  {
    var b := Basename(path);
    assert |b| == |path|;
    assert path[|path| - |b|..] == path;
  }

  /** A successful upload answers with a name that starts with `img_` and
      ends with '.' and the client's extension, and a URL under /uploads/. */
  lemma UploadedNameShape(session: Option<Auth.SessionUser>, verb: string, file: Option<UploadedFile>, unique: string, moved: bool)
    requires session.Some? && verb == "POST" && file.Some?
    requires file.value.mimeType in AllowedTypes && file.value.size <= MaxBytes && moved
    ensures var p := HandleUpload(session, verb, file, unique, moved).payload;
            var ext := Extension(file.value.name);
      && p.Uploaded?
      && |p.filename| >= 5 + |ext|
      && p.filename[..4] == "img_"
      && p.filename[|p.filename| - |ext| - 1..] == "." + ext
      && p.url == "/uploads/" + p.filename
  {
    StoredNameShape(unique, file.value.name);
  }

  /** The stored name is `img_`, the random part, '.' and the extension. */
  lemma StoredNameShape(unique: string, clientName: string)
    ensures var f := StoredName(unique, clientName);
            var ext := Extension(clientName);
      && |f| >= 5 + |ext|
      && f[..4] == "img_"
      && f[|f| - |ext| - 1..] == "." + ext
  {
    var ext := Extension(clientName);
    var f := StoredName(unique, clientName);
    assert f == ("img_" + unique) + ("." + ext);
  }
}

=== FILE: utf8.dfy ===
/** UTF-8 byte encoding of strings (RFC 3629, section 3).

    The server counts content length in bytes (PHP `strlen`), and the
    client percent-encodes the UTF-8 bytes of query values; both go
    through this module. */
module Utf8 {

  type Byte = b: int | 0 <= b < 256

  predicate IsAscii(c: char) {
    c as int < 0x80
  }

  /** The one to four bytes that encode `c`. The first byte announces the
      length; every further byte is a continuation byte `10xxxxxx`. */
  function EncodeChar(c: char): (bs: seq<Byte>)
    ensures 1 <= |bs| <= 4
    ensures |bs| == 1 <==> IsAscii(c)
    ensures IsAscii(c) ==> bs[0] == c as int
    ensures bs[0] < 0x80 <==> |bs| == 1
    ensures |bs| == 2 ==> 0xC0 <= bs[0] < 0xE0
    ensures |bs| == 3 ==> 0xE0 <= bs[0] < 0xF0
    ensures |bs| == 4 ==> 0xF0 <= bs[0] < 0xF8
    ensures forall i :: 1 <= i < |bs| ==> 0x80 <= bs[i] < 0xC0
  {
    var n := c as int;
    if n < 0x80 then [n]
    else if n < 0x800 then [0xC0 + n / 64, 0x80 + n % 64]
    else if n < 0x10000 then
      var low := n % 4096;
      [0xE0 + n / 4096, 0x80 + low / 64, 0x80 + low % 64]
    else
      var mid := n % 262144;
      var low := mid % 4096;
      [0xF0 + n / 262144, 0x80 + mid / 4096, 0x80 + low / 64, 0x80 + low % 64]
  }

  /** Reads back the scalar value from the bytes `EncodeChar` produced. */
  function DecodeChar(bs: seq<Byte>): int
    requires 1 <= |bs| <= 4
  {
    if |bs| == 1 then bs[0] as int
    else if |bs| == 2 then (bs[0] as int - 0xC0) * 64 + (bs[1] as int - 0x80)
    else if |bs| == 3 then (bs[0] as int - 0xE0) * 4096 + (bs[1] as int - 0x80) * 64 + (bs[2] as int - 0x80)
    else (bs[0] as int - 0xF0) * 262144 + (bs[1] as int - 0x80) * 4096 + (bs[2] as int - 0x80) * 64 + (bs[3] as int - 0x80)
  }

  /** Encoding a character loses nothing: its scalar value can be read back. */
  lemma EncodeCharInjective(c: char)
    ensures DecodeChar(EncodeChar(c)) == c as int
  {
    var n := c as int;
    if n >= 0x10000 {
      var mid := n % 262144;
      var low := mid % 4096;
      assert (low / 64) * 64 + low % 64 == low;
      assert (mid / 4096) * 4096 + low == mid;
      assert (n / 262144) * 262144 + mid == n;
    } else if n >= 0x800 {
      var low := n % 4096;
      assert (low / 64) * 64 + low % 64 == low;
      assert (n / 4096) * 4096 + low == n;
    }
  }

  /** The first byte of an encoding says how long it is. */
  lemma EncodeCharLength(c: char, d: char)
    requires EncodeChar(c)[0] == EncodeChar(d)[0]
    ensures |EncodeChar(c)| == |EncodeChar(d)|
  {
  }

  /** The UTF-8 bytes of a whole string. */
  function Encode(s: string): (bs: seq<Byte>)
    ensures |bs| >= |s|
    ensures |bs| == |s| <==> forall i :: 0 <= i < |s| ==> IsAscii(s[i])
  {
    if |s| == 0 then [] else EncodeChar(s[0]) + Encode(s[1..])
  }

  /** PHP `strlen`: the length of a string in bytes. */
  function ByteLength(s: string): (n: nat)
    ensures n >= |s|
    ensures n == |s| <==> forall i :: 0 <= i < |s| ==> IsAscii(s[i])
  {
    |Encode(s)|
  }

  /** Different strings have different encodings, so a receiver that decodes
      the bytes gets back exactly the string that was sent. */
  lemma {:induction false} EncodeInjective(s: string, t: string)
    requires Encode(s) == Encode(t)
    ensures s == t
    decreases |s|
  {
    if |s| == 0 {
      assert |Encode(t)| == 0;
    } else {
      assert |t| > 0;
      var a, b := EncodeChar(s[0]), EncodeChar(t[0]);
      assert Encode(s) == a + Encode(s[1..]);
      assert Encode(t) == b + Encode(t[1..]);
      assert a[0] == Encode(s)[0] == b[0];
      EncodeCharLength(s[0], t[0]);
      assert a == Encode(s)[..|a|] == b;
      EncodeCharInjective(s[0]);
      EncodeCharInjective(t[0]);
      assert Encode(s[1..]) == Encode(s)[|a|..] == Encode(t[1..]);
      EncodeInjective(s[1..], t[1..]);
      assert s == [s[0]] + s[1..] && t == [t[0]] + t[1..];
    }
  }
}

=== FILE: wrappers.dfy ===
/** Failure-compatible wrappers used across the model: an optional value
    (a nullable column, an absent query parameter) and a result that is
    either a value or an error. */
module Wrappers {

  datatype Option<+T> = None | Some(value: T) {

    /** The wrapped value, or `default` when there is none. */
    function GetOr(default: T): T {
      match this
      case Some(v) => v
      case None => default
    }
  }

  datatype Result<+R, +E> = Success(value: R) | Failure(error: E) {

    predicate IsFailure() {
      Failure?
    }

    function PropagateFailure<U>(): Result<U, E>
      requires Failure?
    {
      Failure(error)
    }

    function Extract(): R
      requires Success?
    {
      value
    }
  }
}
